=== FILE: README.md ===
# Network connectivity, reliability and capacity planning: a Dafny model

This project models the core of a Java network-analysis code base that has three parts.

- **Connectivity** (`NagamochiIbaraki`) computes the global minimum edge cut of an
  undirected multigraph with the Nagamochi–Ibaraki / Stoer–Wagner scheme. Each round
  builds a maximum-adjacency (MA) ordering with a 22-slot counter table. It then either
  stops at two vertices or contracts the last vertex into the one before it. The result is
  the smaller of the last vertex's degree and the recursive cut. Around this sit:
  - building a graph from an edge-multiplicity matrix;
  - generating a random matrix with a given number of edges;
  - counting edges;
  - counting *critical* edges, whose removal lowers the minimum cut.
- **Reliability** (`NetworkReliability`, `NetworkLink`) builds the complete network on
  nodes 1..n. It enumerates every subset of its links, takes each subset's links down,
  and labels each resulting state by whether the up links still connect the network
  (a depth-first search). It can then flip the labels of k distinct states and flip
  them back.
- **Capacity planning** (`NetworkDesign`) covers:
  - the validated setters;
  - a random traffic-demand matrix;
  - a random unit-cost matrix with exactly k low-cost links per node;
  - the flow matrix that accumulates each demand along its route;
  - the total cost, which is the sum of flow times unit cost.

Modules follow the program's structure:

| Module | What it holds |
|---|---|
| `Multigraph` | Multigraph datatype and edge counting |
| `MAOrdering` | The ordering step |
| `Contraction` | Contraction |
| `ActiveVertex` | The Stoer–Wagner "last vertex" lemma |
| `MinCut` | The recursion and its correctness |
| `EdgeMatrix` | Edge matrices |
| `MatrixGraph` | Building a graph from a matrix |
| `CriticalEdges` | The critical-edge analysis |
| `Link` | Network links |
| `Network` | The complete network |
| `Connectivity` | The connectivity search |
| `Subsets` | Subset enumeration |
| `States` | Network states and flipping |
| `NetworkDesign` | Capacity planning |
| `Seqs` | Shared sequence helpers |
| `Wrappers` | Shared `Option` and `Result` types |

`findCriticalEdges` probes every cell `[i][j]` with a positive entry, in both orders, not just
the pairs above the diagonal. When the decremented graph's cut drops, it adds the cell's
original value (the decremented value plus 1). `CriticalEdges` models this.

## Model

| member | source | states |
|---|---|---|
| Seqs.FreeIndex | src/networkReliability/NetworkReliability.java:103-111 | Fewer than n chosen indices always leave a free index below n. This is why drawing until k distinct states are chosen can succeed when k is at most the number of states. |
| Multigraph.RemoveVertex | src/networkConnectivity/NagamochiIbaraki.java:174 | Removing a vertex drops exactly that vertex and the edges incident to it. The edge count falls by its degree, and well-formedness is kept. |
| MAOrdering.PickMax | src/networkConnectivity/NagamochiIbaraki.java:125-133 | The scan finds nothing exactly when no counter is positive. Otherwise it picks the slot with the strictly largest count, and ties go to the lowest id. |
| MAOrdering.PlaceStep | src/networkConnectivity/NagamochiIbaraki.java:104-123 | Once a vertex is placed and its incident edges are processed, each unplaced vertex's counter equals its number of edges into the placed prefix. A placed vertex's counter is negative or zero, so it is never picked again. |
| MAOrdering.StartInv | src/networkConnectivity/NagamochiIbaraki.java:99-102 | Before any vertex is placed, the all-zero counter table already satisfies the counter invariant, with an empty prefix. |
| MAOrdering.PickMaxChoice | src/networkConnectivity/NagamochiIbaraki.java:125-133 | Over an exact counter table, a picked vertex is unplaced, has edges into the prefix, and has strictly the most of them, with ties broken by lowest id. Picking nothing means no unplaced vertex has an edge into the prefix. |
| MAOrdering.StuckIsDisconnected | src/networkConnectivity/NagamochiIbaraki.java:125-139 | If no counter is positive while vertices remain unplaced, the placed prefix is a cut with no crossing edge. |
| MAOrdering.FindMAOrdering | src/networkConnectivity/NagamochiIbaraki.java:82-140 | A returned ordering lists every vertex exactly once and starts with the first vertex of the graph. |
| MAOrdering.FindMAOrderingSound | src/networkConnectivity/NagamochiIbaraki.java:104-139 | A returned ordering is a maximum-adjacency ordering. |
| MAOrdering.MAOrderingConnected | src/networkConnectivity/NagamochiIbaraki.java:135-139 | A complete maximum-adjacency ordering exists only for a connected graph. |
| MAOrdering.MAOrderingUnique | src/networkConnectivity/NagamochiIbaraki.java:125-133 | With ties broken by lowest id, a graph has at most one maximum-adjacency ordering. |
| MAOrdering.FindMAOrderingSpec | src/networkConnectivity/NagamochiIbaraki.java:82-140 | The result is null exactly when the graph is empty or disconnected. It is an ordering `o` exactly when `o` is the maximum-adjacency ordering, which is defined independently of the counter table. |
| Contraction.ContractGraph | src/networkConnectivity/NagamochiIbaraki.java:154-176 | If either endpoint is absent, the graph is unchanged. Otherwise `from` disappears and every other vertex stays. The result has one vertex fewer and keeps well-formedness, ids and loop-freedom. |
| Contraction.CountRedirected | src/networkConnectivity/NagamochiIbaraki.java:164-173 | Counting the redirected copies under a selector counts the original edges that the redirected selector picks out. |
| Contraction.ContractCount | src/networkConnectivity/NagamochiIbaraki.java:161-174 | After contraction, the edge count under any selector is the surviving edges plus the redirected copies. |
| Contraction.ContractMultiplicity | src/networkConnectivity/NagamochiIbaraki.java:161-174 | After contraction, the multiplicity between `to` and any x is the old one plus that of `from`–x. Pairs that avoid `from` and `to` keep theirs. |
| Contraction.ContractSelfLoops | src/networkConnectivity/NagamochiIbaraki.java:164-173 | Contraction leaves the self-loop multiplicity unchanged at every vertex other than `from`. The `from`–`to` edges are dropped rather than redirected, so no loop appears at `to`. |
| Contraction.ContractEdgeCount | src/networkConnectivity/NagamochiIbaraki.java:161-174 | The edge count falls by the `from`–`to` multiplicity plus the self-loops at `from`. |
| Contraction.ContractCut | src/networkConnectivity/NagamochiIbaraki.java:161-174 | A cut of the contracted graph, lifted by putting `from` on `to`'s side, has the same size in the original graph. |
| ActiveVertex.ActiveBound | src/networkConnectivity/NagamochiIbaraki.java:104-133 | Along a maximum-adjacency ordering, the edges from each active vertex back into its prefix are bounded by the edges crossing any cut restricted to that prefix. |
| ActiveVertex.LastVertexBound | src/networkConnectivity/NagamochiIbaraki.java:59-65 | The last vertex's degree is at most the size of every cut that separates the last two vertices of the ordering. |
| MinCut.ContractSimple | src/networkConnectivity/NagamochiIbaraki.java:63-69 | Contracting the last vertex into the second-to-last keeps the graph simple enough for the recursion: well formed, ids in range, loop-free, one vertex fewer. |
| MinCut.TwoVertexCuts | src/networkConnectivity/NagamochiIbaraki.java:47-50 | In a two-vertex graph, the only cuts are the two singletons. |
| MinCut.Unfold | src/networkConnectivity/NagamochiIbaraki.java:34-71 | On three or more vertices: a null ordering means the result is 0 and the graph is disconnected. Otherwise the ordering is the maximum-adjacency ordering, and the result is the minimum of its last vertex's degree and the result on the graph contracted along its last two vertices. |
| MinCut.MinCutAchieved | src/networkConnectivity/NagamochiIbaraki.java:34-71 | For a connected graph with at least two vertices, the returned value is the size of an actual cut. |
| MinCut.LiftCut | src/networkConnectivity/NagamochiIbaraki.java:63-69 | A cut of the contracted graph lifts to a cut of the original graph of equal size. |
| MinCut.ProjectCut | src/networkConnectivity/NagamochiIbaraki.java:63-69 | A cut that keeps the last two vertices together projects to a cut of the contracted graph of equal size. |
| MinCut.MinCutBelowEveryCut | src/networkConnectivity/NagamochiIbaraki.java:34-71 | The returned value is at most the size of every cut. |
| MinCut.MinCutCorrect | src/networkConnectivity/NagamochiIbaraki.java:34-71 | For a loop-free well-formed graph with ids below 22 and at least two vertices, the returned value is the minimum cut. It is attained by some cut and no cut is smaller. |
| MinCut.MinCutTrivial | src/networkConnectivity/NagamochiIbaraki.java:37-41 | A graph with at most one vertex gets 0. |
| MinCut.MinCutZero | src/networkConnectivity/NagamochiIbaraki.java:53-57 | The result is 0 exactly when the graph has at most one vertex or is disconnected. |
| MinCut.MinCutTwoVertices | src/networkConnectivity/NagamochiIbaraki.java:47-50 | On two vertices the result is the number of parallel edges between them. |
| EdgeMatrix.RowSumUpdate | src/networkConnectivity/NagamochiIbaraki.java:195-202 | Changing one cell changes its row sum by the difference. |
| EdgeMatrix.RowsSumUpdate | src/networkConnectivity/NagamochiIbaraki.java:195-202 | Changing one cell changes the sum of all rows by the difference. |
| EdgeMatrix.EdgeCountUpdate | src/networkConnectivity/NagamochiIbaraki.java:246-252 | Changing one cell changes the edge count by the difference. |
| EdgeMatrix.RowsSumZero | src/networkConnectivity/NagamochiIbaraki.java:237-243 | An all-zero matrix has edge count 0. |
| EdgeMatrix.RowSumNonNegative | src/networkConnectivity/NagamochiIbaraki.java:258-266 | A non-negative row has a non-negative sum. |
| EdgeMatrix.FindEdgeCount | src/networkConnectivity/NagamochiIbaraki.java:258-266 | The nested loop returns the sum of all entries, as given by the recursive reference definition. |
| EdgeMatrix.GenEdgeMatrix | src/networkConnectivity/NagamochiIbaraki.java:236-256 | The generated matrix is n×n, non-negative, and zero on the diagonal. It holds exactly `max(m, 0)` edges, whichever cells the random draws pick. |
| MatrixGraph.CreateGraph | src/networkConnectivity/NagamochiIbaraki.java:211-230 | The vertices are 0..n-1 and every edge joins two of them. Ids are below 22 when n ≤ 22. |
| MatrixGraph.CountRowEdges | src/networkConnectivity/NagamochiIbaraki.java:222-228 | One row's edges, counted under a selector, equal the row's weight under that selector. |
| MatrixGraph.CountMatrixEdges | src/networkConnectivity/NagamochiIbaraki.java:222-228 | The graph's edges, counted under a selector, equal the matrix's weight under that selector. |
| MatrixGraph.CreateGraphEdgeCount | src/networkConnectivity/NagamochiIbaraki.java:222-228 | The graph has as many edges as the matrix's edge count, for a non-negative matrix. |
| MatrixGraph.RowWeightJoining | src/networkConnectivity/NagamochiIbaraki.java:222-228 | The edges of one row that join a and b come from the cells [a][b] and [b][a] of that row. |
| MatrixGraph.MatrixWeightJoining | src/networkConnectivity/NagamochiIbaraki.java:222-228 | Summed over the matrix, the edges joining a and b come from the cells [a][b] and [b][a]. |
| MatrixGraph.CreateGraphMultiplicity | src/networkConnectivity/NagamochiIbaraki.java:222-228 | The multiplicity between a and b is the positive part of `m[a][b]` plus that of `m[b][a]`, or `m[a][a]` when a = b. |
| MatrixGraph.CreateGraphLoopless | src/networkConnectivity/NagamochiIbaraki.java:222-228 | A zero diagonal gives a loop-free graph. |
| MatrixGraph.RowWeightUpdate | src/networkConnectivity/NagamochiIbaraki.java:195-202 | Changing one cell changes a row's selected weight by the change in that cell's positive part. This happens only when the cell lies in that row and the selector picks its edge. |
| MatrixGraph.MatrixWeightUpdate | src/networkConnectivity/NagamochiIbaraki.java:195-202 | Changing one cell changes the matrix's selected weight by the change in that cell's positive part. This happens only when the selector picks its edge. |
| MatrixGraph.DecrementCell | src/networkConnectivity/NagamochiIbaraki.java:195-197 | Decrementing a positive cell removes exactly one edge of that cell. Every count drops by one exactly when the selector picks that edge, and is otherwise unchanged. |
| CriticalEdges.FindCriticalEdges | src/networkConnectivity/NagamochiIbaraki.java:189-206 | The matrix is back to its input state afterwards. The result is the sum, over cells whose decrement lowers the minimum cut, of the cell's value. |
| CriticalEdges.ProbeCell | src/networkConnectivity/NagamochiIbaraki.java:194-203 | One probe returns the matrix as it was. It adds the cell's full multiplicity exactly when removing one of its edges drops the minimum cut below the given value, and adds nothing for a zero cell. |
| CriticalEdges.CriticalInRowBound | src/networkConnectivity/NagamochiIbaraki.java:192-205 | One row's critical total is between 0 and the row sum. |
| CriticalEdges.CriticalInRowsBound | src/networkConnectivity/NagamochiIbaraki.java:192-205 | The critical total over a run of rows is between 0 and those rows' sum. |
| CriticalEdges.CriticalSumBound | src/networkConnectivity/NagamochiIbaraki.java:189-206 | The critical count is between 0 and the matrix's edge count. |
| CriticalEdges.CriticalIffInMinCut | src/networkConnectivity/NagamochiIbaraki.java:194-200 | Removing one edge of a cell lowers the minimum cut exactly when that edge crosses some minimum cut. |
| Link.NewLink | src/networkReliability/NetworkLink.java:19-22 | A new link is up and carries the given reliability. |
| Link.CopyLink | src/networkReliability/NetworkLink.java:27-30 | The copy has the original's reliability and status, so it equals the original. |
| Link.SetReliability | src/networkReliability/NetworkLink.java:43-45 | Sets the reliability and keeps the status. Setting the old reliability back restores the link. |
| Link.SetLinkUp | src/networkReliability/NetworkLink.java:47-49 | Brings the link up and keeps the reliability. An up link is left unchanged. |
| Link.SetLinkDown | src/networkReliability/NetworkLink.java:51-53 | Takes the link down and keeps the reliability. A down link is left unchanged. Taking an up link down and bringing it back up restores it exactly. |
| Link.ToString | src/networkReliability/NetworkLink.java:62-68 | The printed form is one of "UP" and "DOWN". |
| Link.ToStringStatus | src/networkReliability/NetworkLink.java:62-68 | The printed form is "UP" exactly for an up link and "DOWN" exactly for a down one. Reading it back gives the status. |
| Network.FindWire | src/networkReliability/NetworkReliability.java:64-66 | The lookup finds a link joining the two nodes, in either order, whenever one exists. It reports absence exactly when none does. |
| Network.RowsMembers | src/networkReliability/NetworkReliability.java:141-147 | The rows of the nodes below i hold exactly the pairs u < v ≤ n with u < i, each a new link with reliability d. |
| Network.ConstructCompleteNetwork | src/networkReliability/NetworkReliability.java:132-150 | The nodes are 1..n and the links are the complete set of pairs, each a new up link. |
| Network.RowsLength | src/networkReliability/NetworkReliability.java:141-147 | The rows of the nodes below i hold C(n,2) − C(n−i+1,2) links, so all rows hold n(n−1)/2. |
| Network.CompleteCount | src/networkReliability/NetworkReliability.java:141-147 | The complete network on n nodes has n(n-1)/2 links. |
| Network.CompleteShape | src/networkReliability/NetworkReliability.java:137-147 | Every link joins 1 ≤ u < v ≤ n, is up, and has reliability d. Every such pair has a link, and no pair occurs twice. |
| Network.RowsSorted | src/networkReliability/NetworkReliability.java:141-147 | The links come in strictly increasing lexicographic order of their pairs, with u < v in each. |
| Connectivity.ClosedHoldsReachable | src/networkReliability/NetworkReliability.java:199-214 | A set of nodes that holds the start and is closed under up links holds every node reachable from the start. |
| Connectivity.PushNeighbors | src/networkReliability/NetworkReliability.java:205-213 | Only unvisited nodes of the network that are reachable from the start get pushed. Afterwards every up-neighbour of the current node is visited or on the stack. |
| Connectivity.SearchStep | src/networkReliability/NetworkReliability.java:199-214 | One pop-and-push step keeps the search invariant. The invariant says that visited nodes are reachable and every up-neighbour of a finished node is visited or on the stack. The step also lowers the termination measure. |
| Connectivity.SearchOutcome | src/networkReliability/NetworkReliability.java:216-217 | Once the reachable visited set is closed under up links, it has as many nodes as the network exactly when every node is reachable. |
| Connectivity.IsConnected | src/networkReliability/NetworkReliability.java:190-218 | The search answers true exactly when every node is reachable from the first node over up links. |
| Subsets.SubsetHelper | src/networkReliability/NetworkReliability.java:173-182 | The recursive helper appends exactly the reference enumeration and leaves the working list as it found it. |
| Subsets.LinksSubSet | src/networkReliability/NetworkReliability.java:158-168 | The returned list is the enumeration of all subsets. It is empty when there are no links. |
| Subsets.SubsetsCount | src/networkReliability/NetworkReliability.java:173-182 | From position `index`, the helper produces 2^(k-index) lists. |
| Subsets.AllSubsetsCount | src/networkReliability/NetworkReliability.java:158-168 | There are 2^k subsets of k links, the first being the empty list. With no links there are none. |
| Subsets.SubsetsMembers | src/networkReliability/NetworkReliability.java:173-182 | A list is produced exactly when it is the working list followed by links at strictly increasing positions from `index` on. |
| Subsets.BranchesShape | src/networkReliability/NetworkReliability.java:176-181 | Every list added by the loop extends the working list by at least one link. |
| Subsets.SubsetsDistinct | src/networkReliability/NetworkReliability.java:173-182 | The produced lists are pairwise different. |
| Subsets.SubsetDrawsFrom | src/networkReliability/NetworkReliability.java:158-168 | Every subset consists of links of the network. |
| Subsets.ChainsSameElems | src/networkReliability/NetworkReliability.java:173-182 | Two increasing position chains that select the same set of distinct links are the same chain. |
| Subsets.AllSubsetsDistinctSets | src/networkReliability/NetworkReliability.java:158-168 | For distinct links, any two produced subsets differ as sets. The method exhibits a link in one and not the other. |
| States.SetWireDown | src/networkReliability/NetworkReliability.java:63-66 | Only the link found for the pair goes down. Every other link, and every pair, stays as it was. |
| States.DownStep | src/networkReliability/NetworkReliability.java:63-66 | Taking one more listed link down is the same as setting its pair down in the current state. |
| States.SetLinksDown | src/networkReliability/NetworkReliability.java:61-67 | The inner loop produces the reference state in which exactly the listed links are down. |
| States.CompleteFindsItself | src/networkReliability/NetworkReliability.java:64-66 | Looking up the endpoints of a link of the complete network finds that same link. |
| States.CompleteDownExactly | src/networkReliability/NetworkReliability.java:61-67 | In a state built from a subset, a link is down exactly when it is in the subset. Reliabilities are unchanged. |
| States.CompleteDistinct | src/networkReliability/NetworkReliability.java:141-147 | The complete network's links are pairwise different. |
| States.CompleteDownWellFormed | src/networkReliability/NetworkReliability.java:61-67 | Every state's links join nodes of the network. |
| States.CompleteNeedsTwo | src/networkReliability/NetworkReliability.java:141-147 | A complete network with any link has at least two nodes. |
| States.BuildStates | src/networkReliability/NetworkReliability.java:51-71 | There is one state per subset. State i has exactly the links of subset i down, and is labelled connected exactly when every node is reachable from node 1 over up links. |
| States.BuildState | src/networkReliability/NetworkReliability.java:61-69 | One pass builds the complete network with exactly the subset's links down, labelled connected exactly when every node is reachable from node 1. |
| States.StateSpace | src/networkReliability/NetworkReliability.java:54-70 | There are 2^(n(n-1)/2) states for n ≥ 2 and none otherwise. Link k of state i is up exactly when it is not in subset i, and the states are pairwise different. |
| States.FlipAndRestore | src/networkReliability/NetworkReliability.java:95-121 | Exactly k distinct states are flipped. While they are flipped, a state's label differs exactly when the state was chosen and the events are unchanged. Afterwards every label is back to its original value. |
| States.DrawAndFlip | src/networkReliability/NetworkReliability.java:103-111 | The draw loop ends with exactly k distinct valid positions, and exactly their labels are negated. |
| States.FlipBack | src/networkReliability/NetworkReliability.java:116-118 | Negating every flipped label once more restores all the states. |
| NetworkDesign.NewDesign | src/networkCapacityPlanning/NetworkDesign.java:42-45 | The constructor stores both counts and leaves every matrix unset and the total cost at 0. |
| NetworkDesign.DefaultDesign | src/networkCapacityPlanning/NetworkDesign.java:47-50 | The default design has 30 nodes and 5 low-cost links per node, which is a feasible pair. |
| NetworkDesign.SetNumberOfNodes | src/networkCapacityPlanning/NetworkDesign.java:88-95 | The setter fails exactly for n ≤ 0. Otherwise it sets the count and changes nothing else. |
| NetworkDesign.SetNumberOfLowCostEdge | src/networkCapacityPlanning/NetworkDesign.java:97-104 | The setter fails exactly when n ≤ 0 or n ≥ the number of nodes. Otherwise it sets the count and changes nothing else. |
| NetworkDesign.SetterEnsuresFeasible | src/networkCapacityPlanning/NetworkDesign.java:97-104 | Right after a successful `setNumberOfLowCostEdge` call, drawing the unit-cost matrix can finish. A later `setNumberOfNodes` call can undo this; see `NodesSetterSkipsCheck`. |
| NetworkDesign.ConstructorSkipsCheck | src/networkCapacityPlanning/NetworkDesign.java:42-45 | The constructor accepts 3 nodes with 3 low-cost links per node, which the setter would reject. For every row, any set of distinct columns other than the row's own has fewer than 3 members, so the draw loop of `setUnitCost` cannot finish. |
| NetworkDesign.NodesSetterSkipsCheck | src/networkCapacityPlanning/NetworkDesign.java:88-95 | `setNumberOfNodes` accepts a node count at or below the low-cost count, leaving an infeasible design. Afterwards, any set of distinct columns other than a row's own is smaller than the low-cost count, so the draw loop of `setUnitCost` cannot finish. Example: 10 nodes with 5 low-cost links, shrunk to 3 nodes. |
| NetworkDesign.SetNumberOfNodesChecked | src/networkCapacityPlanning/NetworkDesign.java:88-95 | The corrected setter fails exactly when n ≤ 0 or the low-cost count is at least n. On success only the node count changes and the design is feasible. |
| NetworkDesign.NewCheckedDesign | src/networkCapacityPlanning/NetworkDesign.java:42-45 | The checked constructor succeeds exactly when 0 < k < n. On success the design is the unchecked one and is feasible. |
| NetworkDesign.RandomGen | src/networkCapacityPlanning/NetworkDesign.java:272-274 | A draw lies in 0..range. |
| NetworkDesign.RandomGenOnto | src/networkCapacityPlanning/NetworkDesign.java:272-274 | Every value in 0..range is produced by some uniform draw. |
| NetworkDesign.SetTrafficDemand | src/networkCapacityPlanning/NetworkDesign.java:106-118 | The demand matrix is N×N and zero on the diagonal, with every off-diagonal entry in 0..4. Nothing else changes. |
| NetworkDesign.PickLowCost | src/networkCapacityPlanning/NetworkDesign.java:131-142 | The accepted draws for a row are k distinct columns, none of them the row's own node. |
| NetworkDesign.SetUnitCost | src/networkCapacityPlanning/NetworkDesign.java:120-143 | Every unit cost is 1 or 300 and the diagonal is 300. Each row has exactly k entries equal to 1. Nothing else changes. |
| NetworkDesign.LoadNonNegative | src/networkCapacityPlanning/NetworkDesign.java:155-165 | With non-negative demands, every accumulated load is non-negative. |
| NetworkDesign.AddPath | src/networkCapacityPlanning/NetworkDesign.java:160-162 | Walking one route adds the pair's demand once per arc occurrence and leaves other cells unchanged. |
| NetworkDesign.AddRow | src/networkCapacityPlanning/NetworkDesign.java:156-164 | Processing every destination of one source adds exactly that source's contribution to every cell. |
| NetworkDesign.SetFlow | src/networkCapacityPlanning/NetworkDesign.java:145-166 | The flow is N×N. Each cell holds the total demand of all pairs whose route uses that arc, counted once per use. Non-negative demand gives non-negative flow, and nothing else changes. |
| NetworkDesign.SetTotalCost | src/networkCapacityPlanning/NetworkDesign.java:176-183 | The total cost is the sum over all cells of flow times unit cost. Nothing else changes. |
| NetworkDesign.TotalCostBounds | src/networkCapacityPlanning/NetworkDesign.java:120-143 | With unit costs of 1 or 300 and non-negative flow, the total cost lies between the total flow and 300 times the total flow. |

## Left out

- Floating point is out: the probability of a state, `networkReliability()`, the value
  returned by `networkReliabilityFlipped`, and `setDensity`. Reliabilities are carried as
  `real` and never computed with.
- `NetworkDesign.RandomGen` uses exact real arithmetic, so double rounding in
  `Math.random() * (range + 1)` is not modelled.
- Randomness (`Math.random`, `Random.nextInt`) is supplied by the caller:
  - Draws that the source rejects and repeats change nothing, so only the accepted
    draws are modelled (`PickLowCost`, the set drawn in `FlipAndRestore`).
  - `GenEdgeMatrix` draws a start and an end that already differ.
- Java `int` overflow is not modelled, in edge counts, flow sums or `totalCost`.
- Printing and the console are out: `printMatrix`, the `print*` methods (`printInput` and
  `printOutput` of `NetworkDesign` among them), and CSV reporting. The two error messages of
  the min-cut code are not modelled either: "Error: Graph does not contrain enough
  vertices." (null or one-vertex graph; the result 0 is modelled) and "Error: vertices to be
  contracted does not exist in graph." (`contractGraph` with a missing endpoint; the graph
  is returned unchanged, as modelled).
- Graph visualisation and the experiment drivers (`Project1`, `Project2`, `Project3`)
  are out.
- Shortest paths are not part of this model:
  - `DijkstraSP` and `EdgeWeightedDigraph` are out;
  - so are `NetworkDesign.createGraph`, `setCostGraph` and `setFlowGraph`;
  - `SetFlow` takes each pair's path as a parameter (`Routes`);
  - the cost graph is assumed to have N vertices.
- `minCutNIAlgorithm(null)` is not modelled. The graph is a value, never null.
- `minCutNIAlgorithm` contracts the caller's graph in place (`contractGraph` mutates it
  before the recursive call) and leaves it contracted, usually down to two vertices.
  `MinCut.MinCutNI` takes the graph as a value and does not model this effect. No modelled
  caller reuses the graph afterwards: `findCriticalEdges` builds a fresh graph with
  `createGraph` for each probe.
- Vertex ids must lie in 0..21 (`IdsInRange`, `Admissible`). The source throws when an edge
  from a placed vertex reaches an id outside that range, or when the first vertex has such
  an id and a self-loop. Runs that never touch such a slot finish in the source
  (the scan for the next vertex simply never picks an id above 21), but they are not modelled.
- `MinCut.MinCutCorrect` requires a loop-free graph. Every graph built from a matrix with
  a zero diagonal is loop-free, and contraction keeps it so. With a self-loop, the
  source's degree-based bound is not a cut size.
- `CriticalEdges.FindCriticalEdges` requires a square matrix with at most 22 rows.
  `CreateGraph` likewise requires a square matrix.
- `EdgeMatrix.GenEdgeMatrix` and `NetworkDesign.SetTrafficDemand` require a non-negative
  size, since Java throws on a negative array size.
- `EdgeMatrix.GenEdgeMatrix` requires two nodes when m > 0, because otherwise the
  source's draw loop never ends.
- `States.SetWireDown` and `States.SetLinksDown` require the link to be present. In the
  source a missing link is a null dereference, and in the complete network every link is
  present.
- `Connectivity.IsConnected` requires a non-empty network, since `get(0)` throws.
  It visits neighbours in node order. The graph library's neighbour order changes only
  the visiting order, not the answer.
- The search starts at node 1. The source starts at `getVertices().get(0)`, which for the
  complete network is node 1.
- `States.BuildStates` keeps the states as a sequence, in the order of the subset
  enumeration. The source keeps them in a `HashMap` keyed by graph identity, whose
  iteration order is unobservable in every modelled result.
- The list of all links is taken in insertion order.
- `States.FlipAndRestore` requires k ≤ the number of states. Otherwise the source's draw
  loop never ends, and with no states `nextInt(0)` throws.
- `NetworkDesign.SetUnitCost` requires a feasible design (`k ≤ N − 1` when N > 0; k ≤ 0 means no draws).
  Otherwise the source's draw loop never ends. See Findings.
- `NetworkDesign.SetTotalCost` requires the unit-cost matrix to cover the flow matrix.
  Otherwise the source throws on a null or short row.
- Edge order inside the multigraph after contraction is not modelled. Only counts and
  multiplicities are observable to the algorithm.
- Vertex ids are compared by value. The source's `Integer` comparisons agree on the
  cached ids 0..21 that the algorithm uses.

## Findings

| source | as written | input that shows it | evidently intended | confidence | as-written member | corrected member |
|---|---|---|---|---|---|---|
| src/networkCapacityPlanning/NetworkDesign.java:42-45 | The constructor stores `numberOfLowCostEdge` without the check that `setNumberOfLowCostEdge` (line 98) applies. | `new NetworkDesign(3, 3)` followed by `setUnitCost()`. The draw loop at lines 133-138 needs 3 distinct columns other than the row's own among 3 nodes, so it never ends. | The constructor rejects a low-cost count outside 0 < k < numberOfNodes, like the setter. | medium (not executed) | NetworkDesign.ConstructorSkipsCheck | NetworkDesign.NewCheckedDesign |
| src/networkCapacityPlanning/NetworkDesign.java:88-95 | `setNumberOfNodes` checks only that the new count is positive. It does not compare it with `numberOfLowCostEdge`. | `new NetworkDesign(10, 0)`, then `setNumberOfLowCostEdge(5)`, `setNumberOfNodes(3)` and `setUnitCost()`. The draw loop at lines 133-138 needs 5 distinct columns among 3 nodes, so it never ends. | The setter rejects a node count that does not exceed the low-cost count, keeping the design feasible. | low (not executed) | NetworkDesign.NodesSetterSkipsCheck | NetworkDesign.SetNumberOfNodesChecked |

=== FILE: active_vertex.dfy ===
/**
 * The cut bound behind maximum-adjacency contraction (Stoer and Wagner's lemma): in a
 * maximum-adjacency ordering, any cut that separates the last two vertices is crossed by
 * at least as many edges as join the last vertex to all the others.
 */
module ActiveVertex {
  import opened Seqs
  import opened Multigraph
  import opened MAOrdering

  /** The first `k` vertices of the ordering. */
  function Prefix(o: seq<int>, k: int): set<int>
    requires 0 <= k <= |o|
  {
    Elems(o[..k])
  }

  /** `o[k]` lies on the other side of `s` from its predecessor. */
  predicate Active(o: seq<int>, s: set<int>, k: int) {
    1 <= k < |o| && (o[k] in s) != (o[k - 1] in s)
  }

  /** The closest active position before `k`, or 0 when there is none. */
  function PrevActive(o: seq<int>, s: set<int>, k: int): (r: nat)
    requires 1 <= k <= |o|
    ensures r < k
    ensures r == 0 || Active(o, s, r)
    ensures forall j :: r < j < k ==> !Active(o, s, j)
  {
    if k == 1 then 0
    else if Active(o, s, k - 1) then k - 1
    else PrevActive(o, s, k - 1)
  }

  /** Without an active position in between, a stretch of the ordering stays on one side. */
  lemma {:induction false} Quiet(o: seq<int>, s: set<int>, r: int, k: int)
    requires 0 <= r < k <= |o|
    requires forall j :: r < j < k ==> !Active(o, s, j)
    ensures forall j :: r <= j < k ==> (o[j] in s) == (o[r] in s)
    decreases k
  {
    if k > r + 1 {
      Quiet(o, s, r, k - 1);
      assert !Active(o, s, k - 1);
    }
  }

  lemma PrefixMember(o: seq<int>, k: int, y: int) returns (j: int)
    requires 0 <= k <= |o| && y in Prefix(o, k)
    ensures 0 <= j < k && o[j] == y
  {
    assert y in o[..k];
    j :| 0 <= j < k && o[..k][j] == y;
  }

  /** Edges joining `x` to `p`, inside the first `k + 1` vertices and crossing `s`. */
  function CrossingWithin(o: seq<int>, s: set<int>, k: int): Selector
    requires 0 <= k < |o|
  {
    Both(Crossing(s), Inside(Prefix(o, k + 1)))
  }

  lemma PrefixMono(o: seq<int>, r: int, k: int)
    requires 0 <= r <= k <= |o|
    ensures Prefix(o, r) <= Prefix(o, k)
  {
    forall y | y in Prefix(o, r) ensures y in Prefix(o, k) {
      var j := PrefixMember(o, r, y);
      assert o[..k][j] == y;
    }
  }

  lemma NotInPrefix(o: seq<int>, k: int, i: int)
    requires Distinct(o) && 0 <= k <= i < |o|
    ensures o[i] !in Prefix(o, k)
  {
    if o[i] in Prefix(o, k) {
      var j := PrefixMember(o, k, o[i]);
    }
  }

  /**
   * With `r` the previous active position, the edges from the active `o[k]` back to
   * `o[r..k-1]` all cross `s` inside the first `k + 1` vertices, and none of them lies
   * inside the first `r + 1`.
   */
  lemma NearEdges(g: Graph, o: seq<int>, s: set<int>, k: int, r: int)
    requires Distinct(o) && Active(o, s, k) && r == PrevActive(o, s, k)
    ensures Prefix(o, r) <= Prefix(o, k)
    ensures forall e :: e in g.edges && Holds(Linking(o[k], Prefix(o, k) - Prefix(o, r)), e) ==>
      Holds(CrossingWithin(o, s, k), e) && !Holds(CrossingWithin(o, s, r), e)
    ensures Conn(g, Prefix(o, k), o[k]) ==
      Conn(g, Prefix(o, r), o[k]) + Count(g.edges, Linking(o[k], Prefix(o, k) - Prefix(o, r)))
  {
    var x := o[k];
    var a := Prefix(o, k);
    var b := Prefix(o, r);
    Quiet(o, s, r, k);
    PrefixMono(o, r, k);
    NotInPrefix(o, r + 1, k);
    assert x in Prefix(o, k + 1) by {
      assert o[..k + 1][k] == x;
    }
    forall e | e in g.edges && Holds(Linking(x, a - b), e)
      ensures Holds(CrossingWithin(o, s, k), e) && !Holds(CrossingWithin(o, s, r), e)
    {
      var y := if e.first == x then e.second else e.first;
      var j := PrefixMember(o, k, y);
      assert o[..k + 1][j] == y;
    }
    NotInPrefix(o, k, k);
    CountSplit(g.edges, Linking(x, a), Linking(x, b), Linking(x, a - b));
  }

  /** At step `r` the ordering picked a vertex with at least as many edges back as any later one. */
  lemma MAStep(g: Graph, o: seq<int>, r: int, k: int)
    requires IsMAOrdering(g, o) && 1 <= r < k < |o|
    ensures Conn(g, Prefix(o, r), o[k]) <= Conn(g, Prefix(o, r), o[r])
  {
    NotInPrefix(o, r, k);
    assert IsMAChoice(g, Prefix(o, r), o[r]);
  }

  /**
   * For an active position `k`, the edges from `o[k]` back to the earlier vertices are no more
   * than the edges of the first `k + 1` vertices that cross `s`.
   */
  lemma {:induction false} ActiveBound(g: Graph, o: seq<int>, s: set<int>, k: int)
    requires WellFormed(g) && IsMAOrdering(g, o)
    requires Active(o, s, k)
    ensures Conn(g, Prefix(o, k), o[k]) <= Count(g.edges, CrossingWithin(o, s, k))
    decreases k
  {
    var r := PrevActive(o, s, k);
    if r == 0 {
      FirstActive(g, o, s, k);
    } else {
      ActiveBound(g, o, s, r);
      LaterActive(g, o, s, k, r);
    }
  }

  /** The first active position: all its edges back cross `s` within the prefix. */
  lemma FirstActive(g: Graph, o: seq<int>, s: set<int>, k: int)
    requires IsMAOrdering(g, o) && Active(o, s, k) && PrevActive(o, s, k) == 0
    ensures Conn(g, Prefix(o, k), o[k]) <= Count(g.edges, CrossingWithin(o, s, k))
  {
    var x := o[k];
    NearEdges(g, o, s, k, 0);
    CountNone(g.edges, Linking(x, Prefix(o, 0)));
    CountMono(g.edges, Linking(x, Prefix(o, k) - Prefix(o, 0)), CrossingWithin(o, s, k));
  }

  /** A later active position, given the bound at the previous one. */
  lemma LaterActive(g: Graph, o: seq<int>, s: set<int>, k: int, r: int)
    requires IsMAOrdering(g, o) && Active(o, s, k) && r == PrevActive(o, s, k) && r > 0
    requires Conn(g, Prefix(o, r), o[r]) <= Count(g.edges, CrossingWithin(o, s, r))
    ensures Conn(g, Prefix(o, k), o[k]) <= Count(g.edges, CrossingWithin(o, s, k))
  {
    var x := o[k];
    var near := Linking(x, Prefix(o, k) - Prefix(o, r));
    var within := CrossingWithin(o, s, k);
    var before := CrossingWithin(o, s, r);
    NearEdges(g, o, s, k, r);
    MAStep(g, o, r, k);
    PrefixMono(o, r + 1, k + 1);
    CountDisjointSum(g.edges, before, near, within);
  }

  /**
   * Any cut separating the last two vertices of a maximum-adjacency ordering of a graph without
   * self-loops is crossed by at least as many edges as meet the last vertex.
   */
  lemma LastVertexBound(g: Graph, o: seq<int>, s: set<int>)
    requires WellFormed(g) && Loopless(g) && IsMAOrdering(g, o)
    requires |o| >= 2 && (o[|o| - 1] in s) != (o[|o| - 2] in s)
    ensures Degree(g, o[|o| - 1]) <= CutSize(g, s)
  {
    var n := |o|;
    ActiveBound(g, o, s, n - 1);
    CountMono(g.edges, CrossingWithin(o, s, n - 1), Crossing(s));
    LastDegree(g, o);
  }

  /** Every edge at the last vertex of an ordering leads back into the rest of it. */
  lemma LastDegree(g: Graph, o: seq<int>)
    requires WellFormed(g) && Loopless(g) && IsMAOrdering(g, o) && |o| >= 2
    ensures Degree(g, o[|o| - 1]) == Conn(g, Prefix(o, |o| - 1), o[|o| - 1])
  {
    var n := |o|;
    var t := o[n - 1];
    SameLengthSameElems(o, g.vertices);
    forall e | e in g.edges
      ensures Holds(Touching(t), e) <==> Holds(Linking(t, Prefix(o, n - 1)), e)
    {
      if Holds(Touching(t), e) {
        var y := if e.first == t then e.second else e.first;
        assert y in Elems(o);
        var j :| 0 <= j < n && o[j] == y;
        assert o[..n - 1][j] == y;
      }
    }
    CountSame(g.edges, Touching(t), Linking(t, Prefix(o, n - 1)));
  }

}

=== FILE: connectivity.dfy ===
/**
 * `isConnected`: depth-first search from the first node over links that are up; the network
 * is connected when the search visits as many nodes as the network has.
 */
module Connectivity {
  import opened Wrappers
  import opened Seqs
  import opened Link
  import opened Network

  /** `findEdge(a, b).isUp()` for neighbours `a` and `b`. */
  predicate UpLinked(net: Network, a: int, b: int) {
    var k := FindWire(net.wires, a, b);
    k.Some? && net.wires[k.value].link.status
  }

  /** Nodes listed once, links between listed nodes. */
  ghost predicate WellFormedNet(net: Network) {
    && Distinct(net.nodes)
    && forall w :: w in net.wires ==> w.u in net.nodes && w.v in net.nodes
  }

  /** A walk along links that are up. */
  ghost predicate IsUpPath(net: Network, p: seq<int>) {
    |p| > 0 && forall k :: 0 <= k < |p| - 1 ==> UpLinked(net, p[k], p[k + 1])
  }

  ghost predicate Reachable(net: Network, a: int, b: int) {
    exists p :: IsUpPath(net, p) && p[0] == a && p[|p| - 1] == b
  }

  /** Every node can be reached from `start` over links that are up. */
  ghost predicate AllReachable(net: Network, start: int) {
    forall v :: v in net.nodes ==> Reachable(net, start, v)
  }

  /** No up link leaves `s`. */
  ghost predicate Closed(net: Network, s: set<int>) {
    forall a, b :: a in s && UpLinked(net, a, b) ==> b in s
  }

  lemma UpLinkedNodes(net: Network)
    requires WellFormedNet(net)
    ensures forall a, b :: UpLinked(net, a, b) ==> a in net.nodes && b in net.nodes
  {
  }

  lemma ReachStart(net: Network, a: int)
    ensures Reachable(net, a, a)
  {
    assert IsUpPath(net, [a]);
  }

  lemma ReachStep(net: Network, a: int, b: int, c: int)
    requires Reachable(net, a, b) && UpLinked(net, b, c)
    ensures Reachable(net, a, c)
  {
    var p :| IsUpPath(net, p) && p[0] == a && p[|p| - 1] == b;
    assert IsUpPath(net, p + [c]);
  }

  /** A closed set holds every node reachable from its members. */
  lemma {:induction false} ClosedHoldsPath(net: Network, s: set<int>, p: seq<int>, k: int)
    requires Closed(net, s) && IsUpPath(net, p) && p[0] in s && 0 <= k < |p|
    ensures p[k] in s
  {
    if k > 0 {
      ClosedHoldsPath(net, s, p, k - 1);
    }
  }

  lemma ClosedHoldsReachable(net: Network, s: set<int>, a: int, b: int)
    requires Closed(net, s) && a in s && Reachable(net, a, b)
    ensures b in s
  {
    var p :| IsUpPath(net, p) && p[0] == a && p[|p| - 1] == b;
    ClosedHoldsPath(net, s, p, |p| - 1);
  }

  /**
   * The neighbour loop for a popped node: pushes, in node order, every unvisited node joined to
   * `current` by an up link.
   */
  method PushNeighbors(net: Network, start: int, current: int, visited: set<int>, stack: seq<int>)
    returns (stack': seq<int>)
    requires WellFormedNet(net) && Reachable(net, start, current)
    ensures |stack'| >= |stack| && stack'[..|stack|] == stack
    ensures forall t :: |stack| <= t < |stack'| ==> stack'[t] !in visited && stack'[t] in net.nodes
    ensures forall t :: |stack| <= t < |stack'| ==> Reachable(net, start, stack'[t])
    ensures forall y :: UpLinked(net, current, y) ==> y in visited || y in stack'
  {
    UpLinkedNodes(net);
    stack' := stack;
    var k := 0;
    while k < |net.nodes|
      invariant 0 <= k <= |net.nodes|
      invariant |stack'| >= |stack| && stack'[..|stack|] == stack
      invariant forall t :: |stack| <= t < |stack'| ==> stack'[t] !in visited && stack'[t] in net.nodes
      invariant forall t :: |stack| <= t < |stack'| ==> Reachable(net, start, stack'[t])
      invariant forall y :: UpLinked(net, current, y) && y in net.nodes[..k] ==> y in visited || y in stack'
    {
      var neighbor := net.nodes[k];
      if neighbor !in visited && UpLinked(net, current, neighbor) {
        ReachStep(net, start, current, neighbor);
        stack' := stack' + [neighbor];
      }
      assert net.nodes[..k + 1] == net.nodes[..k] + [neighbor];
      k := k + 1;
    }
    assert net.nodes[..k] == net.nodes;
  }

  /** Once the search stops, the visited count matches the node count exactly when all are reachable. */
  lemma SearchOutcome(net: Network, start: int, visited: set<int>)
    requires WellFormedNet(net) && start in visited && visited <= Elems(net.nodes)
    requires forall x :: x in visited ==> Reachable(net, start, x)
    requires Closed(net, visited)
    ensures |visited| == |net.nodes| <==> AllReachable(net, start)
  {
    var all := Elems(net.nodes);
    DistinctCard(net.nodes);
    if visited == all {
      forall v | v in net.nodes ensures Reachable(net, start, v) {
        assert v in visited;
      }
    } else {
      SubsetCard(visited, all);
    }
    if AllReachable(net, start) {
      forall v | v in all ensures v in visited {
        ClosedHoldsReachable(net, visited, start, v);
      }
    }
  }

  /** What the search keeps true between pops. */
  ghost predicate SearchInv(net: Network, start: int, visited: set<int>, stack: seq<int>) {
    && visited <= Elems(net.nodes)
    && (forall t :: 0 <= t < |stack| ==> stack[t] in net.nodes)
    && (start in visited || start in stack)
    && (forall x :: x in visited ==> Reachable(net, start, x))
    && (forall t :: 0 <= t < |stack| ==> Reachable(net, start, stack[t]))
    && (forall x, y :: x in visited && UpLinked(net, x, y) ==> y in visited || y in stack)
  }

  /** 0 when the top of the stack is still unvisited, else 1. */
  function TopSeen(visited: set<int>, stack: seq<int>): int {
    if |stack| > 0 && stack[|stack| - 1] !in visited then 0 else 1
  }

  /** The invariant after popping `current`, marking it visited and pushing its neighbours. */
  lemma StepKeepsInv(net: Network, start: int, visited: set<int>, stack: seq<int>,
                     visited': set<int>, popped: seq<int>, stack': seq<int>)
    requires WellFormedNet(net) && |stack| > 0 && SearchInv(net, start, visited, stack)
    requires popped == stack[..|stack| - 1]
    requires visited' == visited + {stack[|stack| - 1]}
    requires |stack'| >= |popped| && stack'[..|popped|] == popped
    requires forall t :: |popped| <= t < |stack'| ==> stack'[t] in net.nodes
    requires forall t :: |popped| <= t < |stack'| ==> Reachable(net, start, stack'[t])
    requires forall y :: UpLinked(net, stack[|stack| - 1], y) ==> y in visited' || y in stack'
    ensures SearchInv(net, start, visited', stack')
  {
    var current := stack[|stack| - 1];
    assert stack == popped + [current];
    assert forall t :: 0 <= t < |popped| ==> stack'[t] == popped[t] == stack[t];
    assert forall x :: x in stack ==> x in stack' || x == current;
  }

  /** One pop and its neighbour loop. */
  method SearchStep(net: Network, start: int, visited: set<int>, stack: seq<int>)
    returns (visited': set<int>, stack': seq<int>)
    requires WellFormedNet(net) && |stack| > 0 && SearchInv(net, start, visited, stack)
    ensures SearchInv(net, start, visited', stack')
    ensures var all := Elems(net.nodes);
      || |all - visited'| < |all - visited|
      || (|all - visited'| == |all - visited| && TopSeen(visited', stack') < TopSeen(visited, stack))
      || (|all - visited'| == |all - visited| && TopSeen(visited', stack') == TopSeen(visited, stack)
          && |stack'| < |stack|)
  {
    ghost var all := Elems(net.nodes);
    var current := stack[|stack| - 1];
    var popped := stack[..|stack| - 1];
    visited' := visited;
    if current !in visited {
      visited' := visited + {current};
      assert all - visited' == (all - visited) - {current};
    } else {
      assert visited' == visited + {current};
    }
    stack' := PushNeighbors(net, start, current, visited', popped);
    StepKeepsInv(net, start, visited, stack, visited', popped, stack');
  }

  /**
   * The search. A popped node is marked visited (if it was not), then every neighbour that is
   * unvisited and joined by an up link is pushed. A node can be pushed more than once before
   * it is first popped; a later pop of it only pushes what is still unvisited.
   */
  method IsConnected(net: Network) returns (r: bool)
    requires WellFormedNet(net) && |net.nodes| > 0
    ensures r <==> AllReachable(net, net.nodes[0])
  {
    var start := net.nodes[0];
    ghost var all := Elems(net.nodes);
    ReachStart(net, start);
    var visited: set<int> := {};
    var stack := [start];
    while |stack| > 0
      invariant SearchInv(net, start, visited, stack)
      decreases |all - visited|, TopSeen(visited, stack), |stack|
    {
      visited, stack := SearchStep(net, start, visited, stack);
    }
    SearchOutcome(net, start, visited);
    r := |visited| == |net.nodes|;
  }
}

=== FILE: contraction.dfy ===
/**
 * `contractGraph(graph, from, to)`: every edge between `from` and some x other than `to` is
 * re-created as a new, parallel x-`to` edge, then `from` is removed together with all of its
 * edges (so `from`-`to` edges and self-loops at `from` disappear).
 */
module Contraction {
  import opened Seqs
  import opened Multigraph

  /** The fresh x-`to` edges added for the `from`-x edges, x != `to`, in edge order. */
  function Redirected(es: seq<Edge>, from: int, to: int): (r: seq<Edge>)
    ensures forall f :: f in r ==>
      f.second == to && f.first != to && (Edge(from, f.first) in es || Edge(f.first, from) in es)
  {
    if |es| == 0 then []
    else
      var e := es[0];
      var here := if Holds(Touching(from), e) && Other(e, from) != to then [Edge(Other(e, from), to)] else [];
      here + Redirected(es[1..], from, to)
  }

  /** `contractGraph`: the graph is returned unchanged when `from` or `to` is missing. */
  function ContractGraph(g: Graph, from: int, to: int): (r: Graph)
    ensures from !in g.vertices || to !in g.vertices ==> r == g
    ensures from in g.vertices && to in g.vertices ==>
      && r.vertices == Remove(g.vertices, from)
      && r.edges == Filter(g.edges + Redirected(g.edges, from, to), Not(Touching(from)))
    ensures WellFormed(g) && from in g.vertices && to in g.vertices ==>
      && WellFormed(r)
      && VertexSet(r) == VertexSet(g) - {from}
      && |r.vertices| == |g.vertices| - 1
    ensures IdsInRange(g) ==> IdsInRange(r)
    ensures Loopless(g) ==> Loopless(r)
  {
    if from !in g.vertices || to !in g.vertices then g
    else
      var g' := Graph(g.vertices, g.edges + Redirected(g.edges, from, to));
      assert WellFormed(g) ==> WellFormed(g');
      RemoveVertex(g', from)
  }

  /** Counting the redirected edges is counting the original edges they come from. */
  lemma {:induction false} CountRedirected(es: seq<Edge>, from: int, to: int, q: Selector)
    ensures Count(Redirected(es, from, to), q) == Count(es, Redirects(from, to, q))
  {
    if |es| > 0 {
      var e := es[0];
      var here := if Holds(Touching(from), e) && Other(e, from) != to then [Edge(Other(e, from), to)] else [];
      CountAppend(here, Redirected(es[1..], from, to), q);
      CountRedirected(es[1..], from, to, q);
    }
  }

  /** Any count over the contracted edges splits into kept edges and redirected ones. */
  lemma ContractCount(g: Graph, from: int, to: int, q: Selector)
    requires from in g.vertices && to in g.vertices
    ensures Count(ContractGraph(g, from, to).edges, q) ==
      Count(g.edges, Both(Not(Touching(from)), q))
      + Count(g.edges, Redirects(from, to, Both(Not(Touching(from)), q)))
  {
    var red := Redirected(g.edges, from, to);
    var nt := Not(Touching(from));
    FilterAppend(g.edges, red, nt);
    CountAppend(Filter(g.edges, nt), Filter(red, nt), q);
    CountFilter(g.edges, nt, q);
    CountFilter(red, nt, q);
    CountRedirected(g.edges, from, to, Both(nt, q));
  }

  /** What it takes for a redirected edge to survive the removal of `from` and satisfy `q`. */
  lemma RedirectsKept(e: Edge, from: int, to: int, q: Selector)
    ensures Holds(Redirects(from, to, Both(Not(Touching(from)), q)), e) <==>
      && Holds(Touching(from), e)
      && Other(e, from) != to && Other(e, from) != from && to != from
      && Holds(q, Edge(Other(e, from), to))
  {
    var x := Other(e, from);
    assert Holds(Both(Not(Touching(from)), q), Edge(x, to)) <==>
      !Holds(Touching(from), Edge(x, to)) && Holds(q, Edge(x, to));
  }

  /**
   * Parallel edges survive contraction: between two remaining vertices the multiplicity grows
   * by the `from` edges redirected to `to`, never merged or deduplicated.
   */
  lemma ContractMultiplicity(g: Graph, from: int, to: int, a: int, b: int)
    requires from in g.vertices && to in g.vertices && from != to
    requires a != from && b != from && a != b
    ensures Multiplicity(ContractGraph(g, from, to), a, b) ==
      Multiplicity(g, a, b)
      + (if a == to then Multiplicity(g, from, b) else 0)
      + (if b == to then Multiplicity(g, from, a) else 0)
  {
    var nt := Not(Touching(from));
    ContractCount(g, from, to, Joining(a, b));
    CountSame(g.edges, Both(nt, Joining(a, b)), Joining(a, b));
    var rq := Redirects(from, to, Both(nt, Joining(a, b)));
    forall e | e in g.edges {
      RedirectsKept(e, from, to, Joining(a, b));
    }
    if a == to {
      CountSame(g.edges, rq, Joining(from, b));
    } else if b == to {
      CountSame(g.edges, rq, Joining(from, a));
    } else {
      CountNone(g.edges, rq);
    }
  }

  /** Contraction creates no self-loop and keeps the existing ones away from `from`. */
  lemma ContractSelfLoops(g: Graph, from: int, to: int, a: int)
    requires from in g.vertices && to in g.vertices && from != to && a != from
    ensures Multiplicity(ContractGraph(g, from, to), a, a) == Multiplicity(g, a, a)
  {
    var nt := Not(Touching(from));
    ContractCount(g, from, to, Joining(a, a));
    CountSame(g.edges, Both(nt, Joining(a, a)), Joining(a, a));
    forall e | e in g.edges {
      RedirectsKept(e, from, to, Joining(a, a));
    }
    CountNone(g.edges, Redirects(from, to, Both(nt, Joining(a, a))));
  }

  /** Exactly the `from`-`to` edges and the self-loops at `from` are lost. */
  lemma ContractEdgeCount(g: Graph, from: int, to: int)
    requires from in g.vertices && to in g.vertices && from != to
    ensures |ContractGraph(g, from, to).edges| ==
      |g.edges| - Multiplicity(g, from, to) - Multiplicity(g, from, from)
  {
    var nt := Not(Touching(from));
    var t := Touching(from);
    var moved := Redirects(from, to, Both(nt, Not(t)));
    ContractCount(g, from, to, Not(t));
    CountComplement(g.edges, Not(t));
    CountSame(g.edges, Both(nt, Not(t)), Not(t));
    CountComplement(g.edges, t);
    forall e | e in g.edges
      ensures Holds(Both(t, Not(moved)), e) <==> Holds(t, e) && !Holds(moved, e)
      ensures Holds(moved, e) <==> Holds(t, e) && Other(e, from) != to && Other(e, from) != from
    {
      RedirectsKept(e, from, to, Not(t));
    }
    CountSplit(g.edges, t, moved, Both(t, Not(moved)));
    CountSplit(g.edges, Both(t, Not(moved)), Joining(from, to), Joining(from, from));
    CountAll(ContractGraph(g, from, to).edges, Not(t));
  }

  /** A split of the contracted graph, with `from` put on `to`'s side. */
  function Lift(s: set<int>, from: int, to: int): set<int> {
    if to in s then s + {from} else s
  }

  /** Every cut of the contracted graph is a cut of the same size in the original graph. */
  lemma ContractCut(g: Graph, from: int, to: int, s: set<int>)
    requires from in g.vertices && to in g.vertices && from != to && from !in s
    ensures CutSize(ContractGraph(g, from, to), s) == CutSize(g, Lift(s, from, to))
  {
    var nt := Not(Touching(from));
    ContractCount(g, from, to, Crossing(s));
    forall e | e in g.edges
      ensures Holds(Crossing(Lift(s, from, to)), e) <==>
        Holds(Both(nt, Crossing(s)), e) || Holds(Redirects(from, to, Both(nt, Crossing(s))), e)
      ensures !(Holds(Both(nt, Crossing(s)), e) && Holds(Redirects(from, to, Both(nt, Crossing(s))), e))
    {
      LiftSelects(e, from, to, s);
    }
    CountSplit(g.edges, Crossing(Lift(s, from, to)),
      Both(nt, Crossing(s)), Redirects(from, to, Both(nt, Crossing(s))));
  }

  /** An edge crosses the lifted cut exactly when it survives contraction crossing `s` or is redirected across it. */
  lemma LiftSelects(e: Edge, from: int, to: int, s: set<int>)
    requires from != to && from !in s
    ensures Holds(Crossing(Lift(s, from, to)), e) <==>
      Holds(Both(Not(Touching(from)), Crossing(s)), e)
      || Holds(Redirects(from, to, Both(Not(Touching(from)), Crossing(s))), e)
    ensures !(Holds(Both(Not(Touching(from)), Crossing(s)), e)
      && Holds(Redirects(from, to, Both(Not(Touching(from)), Crossing(s))), e))
  {
    RedirectsKept(e, from, to, Crossing(s));
  }
}

=== FILE: critical_edges.dfy ===
/**
 * `findCriticalEdges`: for every positive cell, remove one of its edges, recompute the
 * minimum cut, and if it dropped below `minCut` count all of that cell's parallel edges as
 * critical. The matrix is restored cell by cell.
 */
module CriticalEdges {
  import opened Multigraph
  import opened EdgeMatrix
  import opened MatrixGraph
  import opened MinCut

  /** The matrices `createGraph` can be run on: square, ids indexing the 22-slot table. */
  predicate Admissible(m: Matrix) {
    Square(m) && |m| <= MaxVertices
  }

  /** Removing one edge of the positive cell [i][j] lowers the minimum cut below `minCut`. */
  predicate IsCritical(m: Matrix, i: int, j: int, minCut: int)
    requires Admissible(m) && 0 <= i < |m| && 0 <= j < |m|
  {
    m[i][j] > 0 && MinCutNI(CreateGraph(SetCell(m, i, j, m[i][j] - 1))) < minCut
  }

  /** The parallel edges of the critical cells among [i][0..j-1]. */
  function CriticalInRow(m: Matrix, i: int, j: int, minCut: int): int
    requires Admissible(m) && 0 <= i < |m| && 0 <= j <= |m|
  {
    if j == 0 then 0
    else CriticalInRow(m, i, j - 1, minCut) + (if IsCritical(m, i, j - 1, minCut) then m[i][j - 1] else 0)
  }

  function CriticalInRows(m: Matrix, i: int, minCut: int): int
    requires Admissible(m) && 0 <= i <= |m|
  {
    if i == 0 then 0 else CriticalInRows(m, i - 1, minCut) + CriticalInRow(m, i - 1, |m|, minCut)
  }

  /** Reference value: the parallel edges of every critical cell, summed over the whole matrix. */
  function CriticalSum(m: Matrix, minCut: int): int
    requires Admissible(m)
  {
    CriticalInRows(m, |m|, minCut)
  }

  /**
   * One probe of the loop body: decrement the positive cell [i][j], recompute the minimum cut,
   * count the cell's parallel edges if the cut dropped, and increment the cell again.
   */
  method ProbeCell(m: Matrix, i: int, j: int, minCut: int) returns (added: int, restored: Matrix)
    requires Admissible(m) && 0 <= i < |m| && 0 <= j < |m|
    ensures restored == m
    ensures added == if IsCritical(m, i, j, minCut) then m[i][j] else 0
  {
    added := 0;
    restored := m;
    if m[i][j] > 0 {
      var cur := SetCell(m, i, j, m[i][j] - 1);
      assert Square(cur);
      var minCutTest := MinCutNI(CreateGraph(cur));
      if minCutTest < minCut {
        added := cur[i][j] + 1;
      }
      restored := SetCell(cur, i, j, cur[i][j] + 1);
      assert restored[i] == m[i];
    }
  }

  /**
   * The nested loops, with the matrix passed in and handed back: every cell is decremented
   * and incremented again, so the matrix returned equals the one given.
   */
  method FindCriticalEdges(m: Matrix, minCut: int) returns (result: int, restored: Matrix)
    requires Admissible(m)
    ensures restored == m
    ensures result == CriticalSum(m, minCut)
  {
    var cur := m;
    result := 0;
    var i := 0;
    while i < |cur|
      invariant 0 <= i <= |m| && cur == m
      invariant result == CriticalInRows(m, i, minCut)
    {
      var j := 0;
      while j < |cur[i]|
        invariant 0 <= j <= |m| && cur == m
        invariant result == CriticalInRows(m, i, minCut) + CriticalInRow(m, i, j, minCut)
      {
        var added;
        added, cur := ProbeCell(cur, i, j, minCut);
        result := result + added;
        j := j + 1;
      }
      i := i + 1;
    }
    restored := cur;
  }

  // ---------------------------------------------------------------------------
  // What the count means.

  lemma {:induction false} CriticalInRowBound(m: Matrix, i: int, j: int, minCut: int)
    requires Admissible(m) && NonNegative(m) && 0 <= i < |m| && 0 <= j <= |m|
    ensures 0 <= CriticalInRow(m, i, j, minCut) <= RowSum(m[i], j)
  {
    if j > 0 {
      CriticalInRowBound(m, i, j - 1, minCut);
    }
  }

  lemma {:induction false} CriticalInRowsBound(m: Matrix, i: int, minCut: int)
    requires Admissible(m) && NonNegative(m) && 0 <= i <= |m|
    ensures 0 <= CriticalInRows(m, i, minCut) <= RowsSum(m, i)
  {
    if i > 0 {
      CriticalInRowsBound(m, i - 1, minCut);
      CriticalInRowBound(m, i - 1, |m|, minCut);
    }
  }

  /** No more edges are critical than there are edges. */
  lemma CriticalSumBound(m: Matrix, minCut: int)
    requires Admissible(m) && NonNegative(m)
    ensures 0 <= CriticalSum(m, minCut) <= EdgeCount(m)
  {
    CriticalInRowsBound(m, |m|, minCut);
  }

  /** A cut of smallest size that an i-j edge crosses. */
  ghost predicate InSomeMinCut(g: Graph, i: int, j: int) {
    exists s :: IsCut(g, s) && IsMinCut(g, CutSize(g, s)) && Holds(Crossing(s), Edge(i, j))
  }

  /**
   * With `minCut` the true minimum cut of a graph without self-loops, a cell is critical exactly
   * when its edges cross some minimum cut.
   */
  lemma CriticalIffInMinCut(m: Matrix, i: int, j: int)
    requires Admissible(m) && NonNegative(m) && ZeroDiagonal(m) && |m| >= 2
    requires 0 <= i < |m| && 0 <= j < |m| && m[i][j] > 0
    ensures IsCritical(m, i, j, MinCutNI(CreateGraph(m))) <==> InSomeMinCut(CreateGraph(m), i, j)
  {
    var g := CreateGraph(m);
    var m' := SetCell(m, i, j, m[i][j] - 1);
    var g' := CreateGraph(m');
    assert i != j;
    assert Square(m') && ZeroDiagonal(m');
    CreateGraphLoopless(m);
    CreateGraphLoopless(m');
    assert VertexSet(g') == VertexSet(g) by {
      assert g'.vertices == g.vertices;
    }
    MinCutCorrect(g);
    MinCutCorrect(g');
    var minCut := MinCutNI(g);
    if IsCritical(m, i, j, minCut) {
      var s :| IsCut(g', s) && CutSize(g', s) == MinCutNI(g');
      DecrementCell(m, i, j, Crossing(s));
      assert IsCut(g, s);
      assert CutSize(g, s) == minCut;
      assert IsMinCut(g, CutSize(g, s));
    }
    if InSomeMinCut(g, i, j) {
      var s :| IsCut(g, s) && IsMinCut(g, CutSize(g, s)) && Holds(Crossing(s), Edge(i, j));
      DecrementCell(m, i, j, Crossing(s));
      assert IsCut(g', s);
      assert CutSize(g, s) == minCut;
    }
  }
}

=== FILE: edge_matrix.dfy ===
/**
 * Edge matrices (`int[][]`): cell [i][j] holds the number of parallel i-j edges. The
 * convention is not symmetric: an i-j edge is recorded in exactly one of [i][j] and [j][i].
 */
module EdgeMatrix {

  type Matrix = seq<seq<int>>

  /** Every row is as long as the matrix is tall. */
  predicate Square(m: Matrix) {
    forall i :: 0 <= i < |m| ==> |m[i]| == |m|
  }

  predicate NonNegative(m: Matrix) {
    forall i, j :: 0 <= i < |m| && 0 <= j < |m[i]| ==> m[i][j] >= 0
  }

  predicate ZeroDiagonal(m: Matrix) {
    forall i :: 0 <= i < |m| && i < |m[i]| ==> m[i][i] == 0
  }

  /** Sum of the first `j` cells of a row. */
  function RowSum(row: seq<int>, j: int): int
    requires 0 <= j <= |row|
  {
    if j == 0 then 0 else RowSum(row, j - 1) + row[j - 1]
  }

  /** Sum of all cells of the first `i` rows. */
  function RowsSum(m: Matrix, i: int): int
    requires 0 <= i <= |m|
  {
    if i == 0 then 0 else RowsSum(m, i - 1) + RowSum(m[i - 1], |m[i - 1]|)
  }

  /** The total number of edges the matrix describes, `findEdgeCount`. */
  function EdgeCount(m: Matrix): int {
    RowsSum(m, |m|)
  }

  /** `m` with cell [i][j] set to `v`. */
  function SetCell(m: Matrix, i: int, j: int, v: int): (r: Matrix)
    requires 0 <= i < |m| && 0 <= j < |m[i]|
    ensures |r| == |m| && forall k :: 0 <= k < |m| ==> |r[k]| == |m[k]|
    ensures r[i][j] == v
    ensures forall a, b :: 0 <= a < |m| && 0 <= b < |m[a]| && (a, b) != (i, j) ==> r[a][b] == m[a][b]
  {
    m[i := m[i][j := v]]
  }

  /** The n x n matrix of zeros. */
  function ZeroMatrix(n: nat): (r: Matrix)
    ensures |r| == n && Square(r)
    ensures forall i, j :: 0 <= i < n && 0 <= j < n ==> r[i][j] == 0
  {
    seq(n, _ => seq(n, _ => 0))
  }

  // ---------------------------------------------------------------------------
  // Sums under a change of one cell.

  lemma {:induction false} RowSumUpdate(row: seq<int>, j: int, v: int, k: int)
    requires 0 <= j < |row| && 0 <= k <= |row|
    ensures RowSum(row[j := v], k) == RowSum(row, k) + (if j < k then v - row[j] else 0)
  {
    if k > 0 {
      RowSumUpdate(row, j, v, k - 1);
    }
  }

  lemma {:induction false} RowsSumUpdate(m: Matrix, i: int, j: int, v: int, k: int)
    requires 0 <= i < |m| && 0 <= j < |m[i]| && 0 <= k <= |m|
    ensures RowsSum(SetCell(m, i, j, v), k) == RowsSum(m, k) + (if i < k then v - m[i][j] else 0)
  {
    if k > 0 {
      RowsSumUpdate(m, i, j, v, k - 1);
      if k - 1 == i {
        RowSumUpdate(m[i], j, v, |m[i]|);
      }
    }
  }

  /** Changing one cell changes the edge count by the difference, and nothing else. */
  lemma EdgeCountUpdate(m: Matrix, i: int, j: int, v: int)
    requires 0 <= i < |m| && 0 <= j < |m[i]|
    ensures EdgeCount(SetCell(m, i, j, v)) == EdgeCount(m) + v - m[i][j]
  {
    RowsSumUpdate(m, i, j, v, |m|);
  }

  lemma {:induction false} RowSumZero(row: seq<int>, k: int)
    requires 0 <= k <= |row| && forall j :: 0 <= j < |row| ==> row[j] == 0
    ensures RowSum(row, k) == 0
  {
    if k > 0 {
      RowSumZero(row, k - 1);
    }
  }

  lemma {:induction false} RowsSumZero(n: nat, k: int)
    requires 0 <= k <= n
    ensures RowsSum(ZeroMatrix(n), k) == 0
  {
    if k > 0 {
      RowsSumZero(n, k - 1);
      RowSumZero(ZeroMatrix(n)[k - 1], n);
    }
  }

  lemma {:induction false} RowSumNonNegative(row: seq<int>, k: int)
    requires 0 <= k <= |row| && forall j :: 0 <= j < |row| ==> row[j] >= 0
    ensures RowSum(row, k) >= 0
  {
    if k > 0 {
      RowSumNonNegative(row, k - 1);
    }
  }

  // ---------------------------------------------------------------------------
  // The loops of the source.

  /** `findEdgeCount`: the nested summing loops compute the total of all cells. */
  method FindEdgeCount(m: Matrix) returns (result: int)
    ensures result == EdgeCount(m)
  {
    result := 0;
    var i := 0;
    while i < |m|
      invariant 0 <= i <= |m|
      invariant result == RowsSum(m, i)
    {
      var j := 0;
      while j < |m[i]|
        invariant 0 <= j <= |m[i]|
        invariant result == RowsSum(m, i) + RowSum(m[i], j)
      {
        result := result + m[i][j];
        j := j + 1;
      }
      i := i + 1;
    }
  }

  /**
   * `genEdgeMatrix(n, m)`: starting from zeros, adds one edge at a time at a random cell
   * [start][end]. A draw with start == end is rejected and drawn again, so only accepted
   * draws are modelled: each iteration picks any off-diagonal cell. With fewer than two nodes
   * no draw is ever accepted, so for m > 0 the source loops forever; that input is excluded.
   */
  method GenEdgeMatrix(n: int, m: int) returns (r: Matrix)
    requires n >= 0
    requires m <= 0 || n >= 2
    ensures |r| == n && Square(r)
    ensures ZeroDiagonal(r) && NonNegative(r)
    ensures EdgeCount(r) == if m > 0 then m else 0
  {
    r := ZeroMatrix(n);
    RowsSumZero(n, n);
    var count := 0;
    while count < m
      invariant |r| == n && Square(r) && ZeroDiagonal(r) && NonNegative(r)
      invariant 0 <= count <= (if m > 0 then m else 0)
      invariant EdgeCount(r) == count
      decreases m - count
    {
      var start :| 0 <= start < n;
      var end :| 0 <= end < n && end != start;
      EdgeCountUpdate(r, start, end, r[start][end] + 1);
      r := SetCell(r, start, end, r[start][end] + 1);
      count := count + 1;
    }
  }
}

=== FILE: ma_ordering.dfy ===
/**
 * Maximum-adjacency ordering (`findMAOrdering`). The model keeps the source's 22-slot
 * counter table: placing a vertex walks its incident edges, decrementing its own slot for
 * an edge whose endpoints are both placed and incrementing the slot of the unplaced
 * endpoint otherwise; then a scan picks the first slot holding the largest positive count.
 */
module MAOrdering {
  import opened Wrappers
  import opened Seqs
  import opened Multigraph

  /** The freshly allocated `int[MAX_VERTICES_COUNT]`. */
  function Zeros(): (c: seq<int>)
    ensures |c| == MaxVertices && forall x :: 0 <= x < |c| ==> c[x] == 0
  {
    seq(MaxVertices, _ => 0)
  }

  /** The incident-edge loop run after `v` joins `placed` (`placed` already holds `v`). */
  function Relax(es: seq<Edge>, placed: set<int>, v: int, c: seq<int>): (r: seq<int>)
    requires 0 <= v < |c|
    requires forall e :: e in es ==> 0 <= e.first < |c| && 0 <= e.second < |c|
    ensures |r| == |c|
  {
    if |es| == 0 then c
    else
      var e := es[0];
      var c' :=
        if !Holds(Touching(v), e) then c
        else if e.first in placed && e.second in placed then c[v := c[v] - 1]
        else
          var w := if e.first !in placed then e.first else e.second;
          c[w := c[w] + 1];
      Relax(es[1..], placed, v, c')
  }

  /** What the scan has established after looking at slots 0..i-1. */
  ghost predicate ScanInv(c: seq<int>, i: int, maxCount: int, maxVertex: Option<int>) {
    && 0 <= i <= |c|
    && (maxVertex.None? ==> maxCount == 0 && forall x :: 0 <= x < i ==> c[x] <= 0)
    && (maxVertex.Some? ==>
          && 0 <= maxVertex.value < i
          && c[maxVertex.value] == maxCount > 0
          && (forall x :: 0 <= x < i ==> c[x] <= maxCount)
          && (forall x :: 0 <= x < maxVertex.value ==> c[x] < maxCount))
  }

  /** The slot scan: a slot replaces the current best only when strictly larger. */
  function Scan(c: seq<int>, i: int, maxCount: int, maxVertex: Option<int>): (r: Option<int>)
    requires ScanInv(c, i, maxCount, maxVertex)
    ensures r.None? <==> forall x :: 0 <= x < |c| ==> c[x] <= 0
    ensures r.Some? ==>
      && 0 <= r.value < |c| && c[r.value] > 0
      && (forall x :: 0 <= x < |c| ==> c[x] <= c[r.value])
      && (forall x :: 0 <= x < r.value ==> c[x] < c[r.value])
    decreases |c| - i
  {
    if i == |c| then maxVertex
    else if c[i] > maxCount then Scan(c, i + 1, c[i], Some(i))
    else Scan(c, i + 1, maxCount, maxVertex)
  }

  /** The next vertex: the lowest slot holding the largest count, or none when no count is positive. */
  function PickMax(c: seq<int>): (r: Option<int>)
    ensures r.None? <==> forall x :: 0 <= x < |c| ==> c[x] <= 0
    ensures r.Some? ==>
      && 0 <= r.value < |c| && c[r.value] > 0
      && (forall x :: 0 <= x < |c| ==> c[x] <= c[r.value])
      && (forall x :: 0 <= x < r.value ==> c[x] < c[r.value])
  {
    Scan(c, 0, 0, None)
  }

  /** Number of edges between `x` and the placed vertices. */
  function Conn(g: Graph, placed: set<int>, x: int): nat {
    Count(g.edges, Linking(x, placed))
  }

  /**
   * The counter table after `placed` has been processed: an unplaced vertex holds its number
   * of edges to the placed set, a placed one holds minus its number of self-loops.
   */
  ghost predicate CounterInv(g: Graph, placed: set<int>, c: seq<int>) {
    && |c| == MaxVertices
    && forall x :: 0 <= x < MaxVertices ==>
         c[x] == if x in placed then -(Multiplicity(g, x, x) as int) else Conn(g, placed, x)
  }

  /** The ordering loop from a placed prefix `result`, `next` being the vertex picked next. */
  function Grow(g: Graph, result: seq<int>, c: seq<int>, next: Option<int>): (r: Option<seq<int>>)
    requires WellFormed(g) && IdsInRange(g)
    requires Distinct(result) && forall y :: y in result ==> y in g.vertices
    requires CounterInv(g, Elems(result), c)
    requires next.Some? ==> next.value in g.vertices && next.value !in result
    ensures r.Some? ==>
      && |r.value| == |g.vertices|
      && Distinct(r.value)
      && (forall y :: y in r.value ==> y in g.vertices)
      && result <= r.value
      && (next.Some? && |result| < |g.vertices| ==> result + [next.value] <= r.value)
    decreases |g.vertices| - |result|
  {
    if |result| < |g.vertices| && next.Some? then
      var v := next.value;
      var result' := result + [v];
      var c' := Relax(g.edges, Elems(result'), v, c);
      PlaceStep(g, result, c, v);
      PickedIsUnplaced(g, Elems(result'), c');
      Grow(g, result', c', PickMax(c'))
    else if |result| < |g.vertices| then None
    else
      PrefixLength(g, result);
      Some(result)
  }

  /** `findMAOrdering`: `None` (Java's `null`) for an empty graph or when the loop gets stuck. */
  function FindMAOrdering(g: Graph): (r: Option<seq<int>>)
    requires WellFormed(g) && IdsInRange(g)
    ensures r.Some? ==>
      && |r.value| == |g.vertices|
      && Distinct(r.value)
      && (forall y :: y in r.value ==> y in g.vertices)
      && |g.vertices| > 0
      && r.value[0] == g.vertices[0]
  {
    if |g.vertices| == 0 then None
    else
      StartInv(g);
      Grow(g, [], Zeros(), Some(g.vertices[0]))
  }

  // ---------------------------------------------------------------------------
  // The counter table tracks connection counts.

  /** Effect of the incident-edge loop on one slot. */
  lemma {:induction false} RelaxEffect(es: seq<Edge>, placed: set<int>, v: int, c: seq<int>, x: int)
    requires 0 <= v < |c| && 0 <= x < |c| && v in placed
    requires forall e :: e in es ==> 0 <= e.first < |c| && 0 <= e.second < |c|
    ensures Relax(es, placed, v, c)[x] ==
      c[x]
      + (if x !in placed then Count(es, Joining(v, x)) else 0)
      - (if x == v then Count(es, Both(Touching(v), Inside(placed))) else 0)
  {
    if |es| > 0 {
      var e := es[0];
      var c' :=
        if !Holds(Touching(v), e) then c
        else if e.first in placed && e.second in placed then c[v := c[v] - 1]
        else
          var w := if e.first !in placed then e.first else e.second;
          c[w := c[w] + 1];
      assert forall f :: f in es[1..] ==> f in es;
      RelaxEffect(es[1..], placed, v, c', x);
      assert Count(es, Joining(v, x)) == (if Holds(Joining(v, x), e) then 1 else 0) + Count(es[1..], Joining(v, x));
      var q := Both(Touching(v), Inside(placed));
      assert Count(es, q) == (if Holds(q, e) then 1 else 0) + Count(es[1..], q);
    }
  }

  /** A placed prefix never outgrows the vertex list. */
  lemma PrefixLength(g: Graph, result: seq<int>)
    requires WellFormed(g)
    requires Distinct(result) && forall y :: y in result ==> y in g.vertices
    ensures |result| <= |g.vertices|
  {
    forall y | y in Elems(result) ensures y in VertexSet(g) {
      assert y in result;
    }
    SubsetCard(Elems(result), VertexSet(g));
    DistinctCard(result);
    DistinctCard(g.vertices);
  }

  lemma StartInv(g: Graph)
    ensures CounterInv(g, Elems<int>([]), Zeros())
  {
    assert Elems<int>([]) == {};
    forall x | 0 <= x < MaxVertices ensures Conn(g, {}, x) == 0 {
      CountNone(g.edges, Linking(x, {}));
    }
  }

  /**
   * Placing `v` (the increment/decrement pass over its incident edges in `findMAOrdering`) keeps the counter table exact: unplaced vertices gain their
   * edges to `v`, and `v`'s own slot drops to minus its self-loops (zero without them).
   */
  lemma PlaceStep(g: Graph, result: seq<int>, c: seq<int>, v: int)
    requires WellFormed(g) && IdsInRange(g)
    requires CounterInv(g, Elems(result), c)
    requires v in g.vertices && v !in result
    ensures CounterInv(g, Elems(result + [v]), Relax(g.edges, Elems(result + [v]), v, c))
  {
    var p, p' := Elems(result), Elems(result + [v]);
    assert p' == p + {v};
    var c' := Relax(g.edges, p', v, c);
    forall x | 0 <= x < MaxVertices
      ensures c'[x] == if x in p' then -(Multiplicity(g, x, x) as int) else Conn(g, p', x)
    {
      RelaxEffect(g.edges, p', v, c, x);
      if x !in p' {
        CountSplit(g.edges, Linking(x, p'), Linking(x, p), Joining(v, x));
      } else if x == v {
        CountSplit(g.edges, Both(Touching(v), Inside(p')), Linking(v, p), Joining(v, v));
      }
    }
  }

  /** A picked slot is an unplaced vertex of the graph. */
  lemma PickedIsUnplaced(g: Graph, placed: set<int>, c: seq<int>)
    requires WellFormed(g) && IdsInRange(g)
    requires CounterInv(g, placed, c)
    ensures PickMax(c).Some? ==> PickMax(c).value in g.vertices && PickMax(c).value !in placed
  {
    if PickMax(c).Some? {
      var m := PickMax(c).value;
      assert c[m] > 0;
      assert m !in placed;
      var e := CountWitness(g.edges, Linking(m, placed));
    }
  }

  // ---------------------------------------------------------------------------
  // What the ordering is: a reference definition and its connection to the loop.

  /** `x` is the vertex picked after `prefix`: the most edges to the prefix, the lowest id on a tie. */
  ghost predicate IsMAChoice(g: Graph, prefix: set<int>, x: int) {
    && x in g.vertices && x !in prefix
    && Conn(g, prefix, x) > 0
    && (forall u :: u in g.vertices && u !in prefix ==> Conn(g, prefix, u) <= Conn(g, prefix, x))
    && (forall u :: u in g.vertices && u !in prefix && u < x ==> Conn(g, prefix, u) < Conn(g, prefix, x))
  }

  /** A complete maximum-adjacency ordering that starts at the first listed vertex. */
  ghost predicate IsMAOrdering(g: Graph, o: seq<int>) {
    && |o| == |g.vertices| > 0
    && Distinct(o)
    && (forall y :: y in o ==> y in g.vertices)
    && o[0] == g.vertices[0]
    && forall k :: 1 <= k < |o| ==> IsMAChoice(g, Elems(o[..k]), o[k])
  }

  /** The scan over an exact counter table picks the maximum-adjacency vertex, or reports none linked. */
  lemma PickMaxChoice(g: Graph, placed: set<int>, c: seq<int>)
    requires WellFormed(g) && IdsInRange(g)
    requires CounterInv(g, placed, c)
    ensures PickMax(c).Some? ==> IsMAChoice(g, placed, PickMax(c).value)
    ensures PickMax(c).None? ==> forall u :: u in g.vertices && u !in placed ==> Conn(g, placed, u) == 0
  {
    PickedIsUnplaced(g, placed, c);
    if PickMax(c).Some? {
      var m := PickMax(c).value;
      forall u | u in g.vertices && u !in placed
        ensures Conn(g, placed, u) <= Conn(g, placed, m)
        ensures u < m ==> Conn(g, placed, u) < Conn(g, placed, m)
      {
        assert c[u] == Conn(g, placed, u);
      }
    } else {
      forall u | u in g.vertices && u !in placed ensures Conn(g, placed, u) == 0 {
        assert c[u] == Conn(g, placed, u);
      }
    }
  }

  /** When no unplaced vertex is linked to a proper, non-empty placed set, that set is a cut of size 0. */
  lemma StuckIsDisconnected(g: Graph, placed: set<int>)
    requires WellFormed(g)
    requires placed <= VertexSet(g) && placed != {} && placed != VertexSet(g)
    requires forall u :: u in g.vertices && u !in placed ==> Conn(g, placed, u) == 0
    ensures IsCut(g, placed) && CutSize(g, placed) == 0
  {
    assert VertexSet(g) - placed != {} by {
      if VertexSet(g) - placed == {} {
        forall x | x in VertexSet(g) ensures x in placed {
          assert x !in VertexSet(g) - placed;
        }
      }
    }
    if CutSize(g, placed) > 0 {
      var e := CountWitness(g.edges, Crossing(placed));
      var u := if e.first in placed then e.second else e.first;
      CountPositive(g.edges, Linking(u, placed), e);
      assert false;
    }
  }

  /** Everything placed so far was picked by the maximum-adjacency rule. */
  ghost predicate PrefixOk(g: Graph, result: seq<int>) {
    && (|result| > 0 ==> |g.vertices| > 0 && result[0] == g.vertices[0])
    && forall k :: 1 <= k < |result| ==> IsMAChoice(g, Elems(result[..k]), result[k])
  }

  /** Appending a maximum-adjacency choice to a valid prefix gives a valid prefix. */
  lemma PrefixExtend(g: Graph, result: seq<int>, v: int)
    requires PrefixOk(g, result)
    requires |result| == 0 ==> |g.vertices| > 0 && v == g.vertices[0]
    requires |result| > 0 ==> IsMAChoice(g, Elems(result), v)
    ensures PrefixOk(g, result + [v])
  {
    var result' := result + [v];
    forall k | 1 <= k < |result'|
      ensures IsMAChoice(g, Elems(result'[..k]), result'[k])
    {
      if k < |result| {
        assert result'[..k] == result[..k];
      } else {
        assert result'[..k] == result;
      }
    }
  }

  /** A non-empty prefix that is not every vertex and has no edge out splits the graph. */
  lemma StuckPrefix(g: Graph, result: seq<int>)
    requires WellFormed(g)
    requires Distinct(result) && forall y :: y in result ==> y in g.vertices
    requires 0 < |result| < |g.vertices|
    requires forall u :: u in g.vertices && u !in result ==> Conn(g, Elems(result), u) == 0
    ensures Disconnected(g)
  {
    var p := Elems(result);
    forall y | y in p ensures y in VertexSet(g) {
      assert y in result;
    }
    DistinctCard(result);
    DistinctCard(g.vertices);
    assert p != VertexSet(g);
    assert result[0] in p;
    StuckIsDisconnected(g, p);
  }

  /** What holds at every call of the ordering loop: a valid prefix, exact counters, a proper next pick. */
  ghost predicate GrowInv(g: Graph, result: seq<int>, c: seq<int>, next: Option<int>) {
    && Distinct(result) && (forall y :: y in result ==> y in g.vertices)
    && CounterInv(g, Elems(result), c)
    && (next.Some? ==> next.value in g.vertices && next.value !in result)
    && PrefixOk(g, result)
    && (|result| == 0 ==> |g.vertices| > 0 && next == Some(g.vertices[0]))
    && (|result| > 0 && next.Some? ==> IsMAChoice(g, Elems(result), next.value))
    && (|result| > 0 && next.None? ==>
         forall u :: u in g.vertices && u !in result ==> Conn(g, Elems(result), u) == 0)
  }

  /** The loop either completes a maximum-adjacency ordering or stops at a cut of size 0. */
  lemma {:induction false} GrowSpec(g: Graph, result: seq<int>, c: seq<int>, next: Option<int>)
    requires WellFormed(g) && IdsInRange(g)
    requires GrowInv(g, result, c, next)
    ensures Grow(g, result, c, next).Some? ==> IsMAOrdering(g, Grow(g, result, c, next).value)
    ensures Grow(g, result, c, next).None? ==> Disconnected(g)
    decreases |g.vertices| - |result|
  {
    if |result| < |g.vertices| && next.Some? {
      var v := next.value;
      var result' := result + [v];
      var c' := Relax(g.edges, Elems(result'), v, c);
      GrowNext(g, result, c, v);
      GrowSpec(g, result', c', PickMax(c'));
    } else if |result| < |g.vertices| {
      StuckPrefix(g, result);
    } else {
      PrefixLength(g, result);
    }
  }

  /** One pass of the ordering loop keeps its invariant. */
  lemma GrowNext(g: Graph, result: seq<int>, c: seq<int>, v: int)
    requires WellFormed(g) && IdsInRange(g)
    requires GrowInv(g, result, c, Some(v))
    ensures GrowInv(g, result + [v], Relax(g.edges, Elems(result + [v]), v, c),
      PickMax(Relax(g.edges, Elems(result + [v]), v, c)))
  {
    var result' := result + [v];
    var c' := Relax(g.edges, Elems(result'), v, c);
    PlaceStep(g, result, c, v);
    PickedIsUnplaced(g, Elems(result'), c');
    PickMaxChoice(g, Elems(result'), c');
    PrefixExtend(g, result, v);
    assert forall u :: u in result' <==> u in Elems(result');
    DistinctConcat(result, [v]);
  }


  /** A non-null ordering is a maximum-adjacency ordering of all vertices. */
  lemma FindMAOrderingSound(g: Graph)
    requires WellFormed(g) && IdsInRange(g)
    ensures FindMAOrdering(g).Some? ==> IsMAOrdering(g, FindMAOrdering(g).value)
    ensures FindMAOrdering(g).None? && |g.vertices| > 0 ==> Disconnected(g)
  {
    if |g.vertices| > 0 {
      StartInv(g);
      GrowSpec(g, [], Zeros(), Some(g.vertices[0]));
    }
  }

  /** The vertices of a maximum-adjacency ordering all lie on one side of any cut of size 0. */
  lemma {:induction false} SameSide(g: Graph, o: seq<int>, s: set<int>, k: int)
    requires WellFormed(g) && IsMAOrdering(g, o) && CutSize(g, s) == 0
    requires 0 <= k < |o|
    ensures (o[k] in s) == (o[0] in s)
    decreases k
  {
    if k > 0 {
      var prefix := Elems(o[..k]);
      var e := CountWitness(g.edges, Linking(o[k], prefix));
      var y := if e.first == o[k] && e.second in prefix then e.second else e.first;
      assert y in o[..k];
      var j :| 0 <= j < k && o[j] == y;
      SameSide(g, o, s, j);
      if (o[k] in s) != (y in s) {
        CountPositive(g.edges, Crossing(s), e);
      }
    }
  }

  /** A graph with a maximum-adjacency ordering has no cut of size 0. */
  lemma MAOrderingConnected(g: Graph, o: seq<int>)
    requires WellFormed(g) && IsMAOrdering(g, o)
    ensures !Disconnected(g)
  {
    if Disconnected(g) {
      var s :| IsCut(g, s) && CutSize(g, s) == 0;
      SameLengthSameElems(o, g.vertices);
      forall v | v in g.vertices ensures (v in s) == (o[0] in s) {
        assert v in Elems(o);
        var k :| 0 <= k < |o| && o[k] == v;
        SameSide(g, o, s, k);
      }
      assert false;
    }
  }

  lemma MAChoiceUnique(g: Graph, prefix: set<int>, a: int, b: int)
    requires IsMAChoice(g, prefix, a) && IsMAChoice(g, prefix, b)
    ensures a == b
  {
  }

  /** The tie-break makes the ordering unique. */
  lemma MAOrderingUnique(g: Graph, o1: seq<int>, o2: seq<int>)
    requires IsMAOrdering(g, o1) && IsMAOrdering(g, o2)
    ensures o1 == o2
  {
    var k := 1;
    assert o1[..1] == [o1[0]] && o2[..1] == [o2[0]];
    while k < |o1|
      invariant 1 <= k <= |o1| == |o2|
      invariant o1[..k] == o2[..k]
    {
      var p := Elems(o1[..k]);
      assert IsMAChoice(g, p, o1[k]);
      assert IsMAChoice(g, Elems(o2[..k]), o2[k]);
      MAChoiceUnique(g, p, o1[k], o2[k]);
      assert o1[..k + 1] == o1[..k] + [o1[k]];
      assert o2[..k + 1] == o2[..k] + [o2[k]];
      k := k + 1;
    }
    assert o1 == o1[..k] && o2 == o2[..k];
  }

  /**
   * `findMAOrdering` returns null exactly for an empty or disconnected graph (its empty-graph
   * guard and the early return when the `maxCount` scan finds nothing); otherwise it returns the unique maximum-adjacency ordering.
   */
  lemma FindMAOrderingSpec(g: Graph, o: seq<int>)
    requires WellFormed(g) && IdsInRange(g)
    ensures FindMAOrdering(g).None? <==> |g.vertices| == 0 || Disconnected(g)
    ensures FindMAOrdering(g) == Some(o) <==> IsMAOrdering(g, o)
  {
    FindMAOrderingSound(g);
    if FindMAOrdering(g).Some? {
      MAOrderingConnected(g, FindMAOrdering(g).value);
      if IsMAOrdering(g, o) {
        MAOrderingUnique(g, o, FindMAOrdering(g).value);
      }
    } else if IsMAOrdering(g, o) {
      MAOrderingConnected(g, o);
    }
  }
}

=== FILE: matrix_graph.dfy ===
/**
 * `createGraph`: vertices 0..n-1 added in order, then, row by row and cell by cell,
 * `m[i][j]` fresh i-j edges (none when the cell is not positive).
 */
module MatrixGraph {
  import opened Seqs
  import opened Multigraph
  import opened EdgeMatrix

  /** Number of times `for (k = 0; k < c; k++)` runs. */
  function Pos(c: int): nat {
    if c > 0 then c else 0
  }

  function CellEdges(i: int, j: int, c: int): (r: seq<Edge>)
    ensures |r| == Pos(c) && forall e :: e in r ==> e == Edge(i, j)
  {
    seq(Pos(c), _ => Edge(i, j))
  }

  /** The edges added for cells [i][0..j-1]. */
  function RowEdges(m: Matrix, i: int, j: int): (r: seq<Edge>)
    requires 0 <= i < |m| && 0 <= j <= |m[i]|
    ensures forall e :: e in r ==> e.first == i && 0 <= e.second < j
  {
    if j == 0 then [] else RowEdges(m, i, j - 1) + CellEdges(i, j - 1, m[i][j - 1])
  }

  /** The edges added for rows 0..i-1. */
  function MatrixEdges(m: Matrix, i: int): (r: seq<Edge>)
    requires 0 <= i <= |m| && Square(m)
    ensures forall e :: e in r ==> 0 <= e.first < i && 0 <= e.second < |m|
  {
    if i == 0 then []
    else
      var rest := MatrixEdges(m, i - 1);
      var row := RowEdges(m, i - 1, |m[i - 1]|);
      assert forall e :: e in rest + row ==> e in rest || e in row;
      rest + row
  }

  function CreateGraph(m: Matrix): (g: Graph)
    requires Square(m)
    ensures g.vertices == Range(0, |m|)
    ensures forall v :: v in VertexSet(g) <==> 0 <= v < |m|
    ensures WellFormed(g)
    ensures |m| <= MaxVertices ==> IdsInRange(g)
  {
    RangeElems(0, |m|);
    Graph(Range(0, |m|), MatrixEdges(m, |m|))
  }

  // ---------------------------------------------------------------------------
  // Counting the edges of the graph through the cells that produce them.

  /** The edges cell [i][j] contributes to a count by `q`. */
  function CellWeight(m: Matrix, i: int, j: int, q: Selector): nat
    requires 0 <= i < |m| && 0 <= j < |m[i]|
  {
    if Holds(q, Edge(i, j)) then Pos(m[i][j]) else 0
  }

  function RowWeight(m: Matrix, i: int, j: int, q: Selector): nat
    requires 0 <= i < |m| && 0 <= j <= |m[i]|
  {
    if j == 0 then 0 else RowWeight(m, i, j - 1, q) + CellWeight(m, i, j - 1, q)
  }

  function MatrixWeight(m: Matrix, i: int, q: Selector): nat
    requires 0 <= i <= |m|
  {
    if i == 0 then 0 else MatrixWeight(m, i - 1, q) + RowWeight(m, i - 1, |m[i - 1]|, q)
  }

  lemma {:induction false} CountRowEdges(m: Matrix, i: int, j: int, q: Selector)
    requires 0 <= i < |m| && 0 <= j <= |m[i]|
    ensures Count(RowEdges(m, i, j), q) == RowWeight(m, i, j, q)
  {
    if j > 0 {
      var cell := CellEdges(i, j - 1, m[i][j - 1]);
      CountRowEdges(m, i, j - 1, q);
      CountAppend(RowEdges(m, i, j - 1), cell, q);
      CountCell(i, j - 1, m[i][j - 1], q);
    }
  }

  /** The copies of one cell are all selected or all not. */
  lemma CountCell(i: int, j: int, c: int, q: Selector)
    ensures Count(CellEdges(i, j, c), q) == if Holds(q, Edge(i, j)) then Pos(c) else 0
  {
    if Holds(q, Edge(i, j)) {
      CountAll(CellEdges(i, j, c), q);
    } else {
      CountNone(CellEdges(i, j, c), q);
    }
  }

  /** Counting the edges of the graph by any selector is summing the cells it selects. */
  lemma {:induction false} CountMatrixEdges(m: Matrix, i: int, q: Selector)
    requires 0 <= i <= |m| && Square(m)
    ensures Count(MatrixEdges(m, i), q) == MatrixWeight(m, i, q)
  {
    if i > 0 {
      CountMatrixEdges(m, i - 1, q);
      CountRowEdges(m, i - 1, |m[i - 1]|, q);
      CountAppend(MatrixEdges(m, i - 1), RowEdges(m, i - 1, |m[i - 1]|), q);
    }
  }

  lemma {:induction false} RowEdgesLength(m: Matrix, i: int, j: int)
    requires 0 <= i < |m| && 0 <= j <= |m[i]| && NonNegative(m)
    ensures |RowEdges(m, i, j)| == RowSum(m[i], j)
  {
    if j > 0 {
      RowEdgesLength(m, i, j - 1);
    }
  }

  lemma {:induction false} MatrixEdgesLength(m: Matrix, i: int)
    requires 0 <= i <= |m| && Square(m) && NonNegative(m)
    ensures |MatrixEdges(m, i)| == RowsSum(m, i)
  {
    if i > 0 {
      MatrixEdgesLength(m, i - 1);
      RowEdgesLength(m, i - 1, |m[i - 1]|);
    }
  }

  /** A matrix of non-negative cells gives a graph with `findEdgeCount(m)` edges. */
  lemma CreateGraphEdgeCount(m: Matrix)
    requires Square(m) && NonNegative(m)
    ensures |CreateGraph(m).edges| == EdgeCount(m)
  {
    MatrixEdgesLength(m, |m|);
  }

  lemma {:induction false} RowWeightJoining(m: Matrix, i: int, j: int, a: int, b: int)
    requires 0 <= i < |m| && 0 <= j <= |m[i]| && Square(m)
    requires 0 <= a < |m| && 0 <= b < |m|
    ensures RowWeight(m, i, j, Joining(a, b)) ==
      (if i == a && b < j then Pos(m[a][b]) else 0)
      + (if i == b && a < j && a != b then Pos(m[b][a]) else 0)
  {
    if j > 0 {
      RowWeightJoining(m, i, j - 1, a, b);
    }
  }

  lemma {:induction false} MatrixWeightJoining(m: Matrix, i: int, a: int, b: int)
    requires 0 <= i <= |m| && Square(m)
    requires 0 <= a < |m| && 0 <= b < |m|
    ensures MatrixWeight(m, i, Joining(a, b)) ==
      (if a < i then Pos(m[a][b]) else 0) + (if b < i && a != b then Pos(m[b][a]) else 0)
  {
    if i > 0 {
      MatrixWeightJoining(m, i - 1, a, b);
      RowWeightJoining(m, i - 1, |m[i - 1]|, a, b);
    }
  }

  /**
   * Between two distinct vertices there are `m[a][b] + m[b][a]` parallel edges, and `m[a][a]`
   * self-loops at `a` (cells that are not positive add none).
   */
  lemma CreateGraphMultiplicity(m: Matrix, a: int, b: int)
    requires Square(m) && 0 <= a < |m| && 0 <= b < |m|
    ensures Multiplicity(CreateGraph(m), a, b) ==
      if a == b then Pos(m[a][a]) else Pos(m[a][b]) + Pos(m[b][a])
  {
    CountMatrixEdges(m, |m|, Joining(a, b));
    MatrixWeightJoining(m, |m|, a, b);
  }

  /** Without diagonal cells there are no self-loops. */
  lemma CreateGraphLoopless(m: Matrix)
    requires Square(m) && ZeroDiagonal(m)
    ensures Loopless(CreateGraph(m))
  {
    var g := CreateGraph(m);
    forall e | e in g.edges ensures e.first != e.second {
      if e.first == e.second {
        CountPositive(g.edges, Joining(e.first, e.first), e);
        CreateGraphMultiplicity(m, e.first, e.first);
      }
    }
  }

  // ---------------------------------------------------------------------------
  // Changing one cell.

  lemma {:induction false} RowWeightUpdate(m: Matrix, i: int, j: int, v: int, k: int, l: int, q: Selector)
    requires 0 <= i < |m| && 0 <= j < |m[i]| && 0 <= k < |m| && 0 <= l <= |m[k]|
    ensures RowWeight(SetCell(m, i, j, v), k, l, q) ==
      RowWeight(m, k, l, q) + (if k == i && j < l && Holds(q, Edge(i, j)) then Pos(v) - Pos(m[i][j]) else 0)
  {
    if l > 0 {
      RowWeightUpdate(m, i, j, v, k, l - 1, q);
    }
  }

  lemma {:induction false} MatrixWeightUpdate(m: Matrix, i: int, j: int, v: int, k: int, q: Selector)
    requires 0 <= i < |m| && 0 <= j < |m[i]| && 0 <= k <= |m|
    ensures MatrixWeight(SetCell(m, i, j, v), k, q) ==
      MatrixWeight(m, k, q) + (if i < k && Holds(q, Edge(i, j)) then Pos(v) - Pos(m[i][j]) else 0)
  {
    if k > 0 {
      MatrixWeightUpdate(m, i, j, v, k - 1, q);
      RowWeightUpdate(m, i, j, v, k - 1, |m[k - 1]|, q);
    }
  }

  /**
   * Decrementing a positive cell removes one i-j edge: any count, a cut size for instance,
   * drops by one exactly when that count selects an i-j edge.
   */
  lemma DecrementCell(m: Matrix, i: int, j: int, q: Selector)
    requires Square(m) && 0 <= i < |m| && 0 <= j < |m| && m[i][j] > 0
    ensures Square(SetCell(m, i, j, m[i][j] - 1))
    ensures Count(CreateGraph(SetCell(m, i, j, m[i][j] - 1)).edges, q) ==
      Count(CreateGraph(m).edges, q) - (if Holds(q, Edge(i, j)) then 1 else 0)
  {
    var m' := SetCell(m, i, j, m[i][j] - 1);
    assert Square(m');
    DecrementEdges(m, i, j, q);
    assert CreateGraph(m').edges == MatrixEdges(m', |m|);
  }

  /** `DecrementCell` on the edge sequence itself. */
  lemma DecrementEdges(m: Matrix, i: int, j: int, q: Selector)
    requires Square(m) && 0 <= i < |m| && 0 <= j < |m| && m[i][j] > 0
    ensures Square(SetCell(m, i, j, m[i][j] - 1))
    ensures Count(MatrixEdges(SetCell(m, i, j, m[i][j] - 1), |m|), q) ==
      Count(MatrixEdges(m, |m|), q) - (if Holds(q, Edge(i, j)) then 1 else 0)
  {
    var m' := SetCell(m, i, j, m[i][j] - 1);
    assert Square(m');
    CountMatrixEdges(m, |m|, q);
    CountMatrixEdges(m', |m'|, q);
    MatrixWeightUpdate(m, i, j, m[i][j] - 1, |m|, q);
  }
}

=== FILE: min_cut.dfy ===
/**
 * `minCutNIAlgorithm`: the minimum edge cut by repeated maximum-adjacency ordering and
 * contraction of the last vertex into the second-to-last one.
 */
module MinCut {
  import opened Wrappers
  import opened Seqs
  import opened Multigraph
  import opened MAOrdering
  import opened Contraction
  import opened ActiveVertex

  function Min(a: int, b: int): int {
    if a <= b then a else b
  }

  /**
   * One vertex: 0 (the printed one-vertex error message is not modelled). Two vertices: the degree of
   * the first listed one. Otherwise 0 when no ordering exists, else the smaller of the last
   * vertex's degree and the minimum cut after contracting it into its predecessor.
   */
  function MinCutNI(g: Graph): (r: nat)
    requires WellFormed(g) && IdsInRange(g)
    decreases |g.vertices|
  {
    if |g.vertices| == 1 then 0
    else if |g.vertices| == 2 then Degree(g, g.vertices[0])
    else
      match FindMAOrdering(g)
      case None => 0
      case Some(o) =>
        var from, to := o[|o| - 1], o[|o| - 2];
        assert from != to;
        Min(Degree(g, from), MinCutNI(ContractGraph(g, from, to)))
  }

  /** The preconditions of the algorithm, plus absence of self-loops. */
  ghost predicate Simple(g: Graph) {
    WellFormed(g) && IdsInRange(g) && Loopless(g)
  }

  /** `r` is the size of a smallest cut. */
  ghost predicate IsMinCut(g: Graph, r: int) {
    && (exists s :: IsCut(g, s) && CutSize(g, s) == r)
    && (forall s :: IsCut(g, s) ==> r <= CutSize(g, s))
  }

  /** Contraction keeps the preconditions and removes one vertex. */
  lemma ContractSimple(g: Graph, from: int, to: int)
    requires Simple(g) && from in g.vertices && to in g.vertices
    ensures Simple(ContractGraph(g, from, to))
    ensures |ContractGraph(g, from, to).vertices| == |g.vertices| - 1
    ensures VertexSet(ContractGraph(g, from, to)) == VertexSet(g) - {from}
  {
  }

  /** The two vertices of a two-vertex graph, and its only cuts. */
  lemma TwoVertexCuts(g: Graph, s: set<int>)
    requires WellFormed(g) && |g.vertices| == 2 && IsCut(g, s)
    ensures s == {g.vertices[0]} || s == {g.vertices[1]}
  {
    var v0, v1 := g.vertices[0], g.vertices[1];
    assert VertexSet(g) == {v0, v1};
  }

  /** One step of the recursion, from three vertices on. */
  lemma Unfold(g: Graph)
    requires WellFormed(g) && IdsInRange(g) && |g.vertices| >= 3
    ensures FindMAOrdering(g).None? ==> MinCutNI(g) == 0 && Disconnected(g)
    ensures FindMAOrdering(g).Some? ==>
      var o := FindMAOrdering(g).value;
      && IsMAOrdering(g, o) && |o| == |g.vertices|
      && o[|o| - 1] in g.vertices && o[|o| - 2] in g.vertices && o[|o| - 1] != o[|o| - 2]
      && MinCutNI(g) == Min(Degree(g, o[|o| - 1]), MinCutNI(ContractGraph(g, o[|o| - 1], o[|o| - 2])))
  {
    FindMAOrderingSound(g);
  }

  lemma {:induction false} MinCutAchieved(g: Graph)
    requires Simple(g) && |g.vertices| >= 2
    ensures exists s :: IsCut(g, s) && CutSize(g, s) == MinCutNI(g)
    decreases |g.vertices|, 1
  {
    if |g.vertices| == 2 {
      TwoVertexAchieved(g);
    } else {
      Unfold(g);
      if FindMAOrdering(g).Some? {
        var o := FindMAOrdering(g).value;
        var from, to := o[|o| - 1], o[|o| - 2];
        AchievedStep(g, from, to);
        var s :| IsCut(g, s) && CutSize(g, s) == Min(Degree(g, from), MinCutNI(ContractGraph(g, from, to)));
        assert CutSize(g, s) == MinCutNI(g);
      }
    }
  }

  /** On two vertices the value returned, the degree of the first, is the size of a cut. */
  lemma TwoVertexAchieved(g: Graph)
    requires Simple(g) && |g.vertices| == 2
    ensures IsCut(g, {g.vertices[0]}) && CutSize(g, {g.vertices[0]}) == MinCutNI(g)
  {
    var v0 := g.vertices[0];
    SingletonCut(g, v0);
    assert g.vertices[1] in VertexSet(g) - {v0};
  }

  /** The smaller of the two candidates is the size of a cut. */
  lemma {:induction false} AchievedStep(g: Graph, from: int, to: int)
    requires Simple(g) && |g.vertices| >= 3
    requires from in g.vertices && to in g.vertices && from != to
    ensures exists s :: (IsCut(g, s) &&
      CutSize(g, s) == Min(Degree(g, from), MinCutNI(ContractGraph(g, from, to))))
    decreases |g.vertices|, 0
  {
    var h := ContractGraph(g, from, to);
    ContractSimple(g, from, to);
    if Degree(g, from) <= MinCutNI(h) {
      SingletonCut(g, from);
      assert to in VertexSet(g) - {from};
      assert IsCut(g, {from});
    } else {
      MinCutAchieved(h);
      var s' :| IsCut(h, s') && CutSize(h, s') == MinCutNI(h);
      LiftCut(g, from, to, s');
    }
  }

  /** A cut of the contracted graph, with `from` put on `to`'s side, is a cut of the same size. */
  lemma LiftCut(g: Graph, from: int, to: int, s': set<int>)
    requires Simple(g) && from in g.vertices && to in g.vertices && from != to
    requires IsCut(ContractGraph(g, from, to), s')
    ensures IsCut(g, Lift(s', from, to))
    ensures CutSize(g, Lift(s', from, to)) == CutSize(ContractGraph(g, from, to), s')
  {
    var h := ContractGraph(g, from, to);
    ContractSimple(g, from, to);
    ContractCut(g, from, to, s');
    var rest := VertexSet(h) - s';
    var w := Pick(rest);
    assert w in VertexSet(g) - Lift(s', from, to);
  }

  /** A cut that keeps `from` and `to` together is a cut of the contracted graph. */
  lemma ProjectCut(g: Graph, from: int, to: int, s: set<int>)
    requires Simple(g) && from in g.vertices && to in g.vertices && from != to
    requires IsCut(g, s) && (from in s) == (to in s)
    ensures IsCut(ContractGraph(g, from, to), s - {from})
    ensures CutSize(ContractGraph(g, from, to), s - {from}) == CutSize(g, s)
  {
    var h := ContractGraph(g, from, to);
    var s' := s - {from};
    ContractSimple(g, from, to);
    assert Lift(s', from, to) == s;
    if from in s {
      assert to in s';
      var rest := VertexSet(g) - s;
      var w := Pick(rest);
      assert w in VertexSet(h) - s';
    } else {
      assert to in VertexSet(h) - s';
    }
    ContractCut(g, from, to, s');
  }

  lemma {:induction false} MinCutBelowEveryCut(g: Graph, s: set<int>)
    requires Simple(g) && IsCut(g, s)
    ensures MinCutNI(g) <= CutSize(g, s)
    decreases |g.vertices|, 1
  {
    if |g.vertices| == 2 {
      var v0 := g.vertices[0];
      SingletonCut(g, v0);
      TwoVertexCuts(g, s);
      if s != {v0} {
        assert s == VertexSet(g) - {v0};
        CutComplement(g, {v0});
      }
    } else if |g.vertices| > 2 {
      Unfold(g);
      if FindMAOrdering(g).Some? {
        var o := FindMAOrdering(g).value;
        BelowStep(g, o, s);
      }
    }
  }

  /** Both candidates of one step are compared against a cut. */
  lemma {:induction false} BelowStep(g: Graph, o: seq<int>, s: set<int>)
    requires Simple(g) && |g.vertices| >= 3 && IsCut(g, s)
    requires IsMAOrdering(g, o)
    ensures Min(Degree(g, o[|o| - 1]), MinCutNI(ContractGraph(g, o[|o| - 1], o[|o| - 2]))) <= CutSize(g, s)
    decreases |g.vertices|, 0
  {
    var from, to := o[|o| - 1], o[|o| - 2];
    assert from in g.vertices && to in g.vertices && from != to;
    if (from in s) != (to in s) {
      LastVertexBound(g, o, s);
    } else {
      ProjectCut(g, from, to, s);
      ContractSimple(g, from, to);
      MinCutBelowEveryCut(ContractGraph(g, from, to), s - {from});
    }
  }

  /**
   * On a graph without self-loops and with at least two vertices, the algorithm returns
   * exactly the size of a minimum edge cut.
   */
  lemma MinCutCorrect(g: Graph)
    requires Simple(g) && |g.vertices| >= 2
    ensures IsMinCut(g, MinCutNI(g))
  {
    MinCutAchieved(g);
    forall s | IsCut(g, s) ensures MinCutNI(g) <= CutSize(g, s) {
      MinCutBelowEveryCut(g, s);
    }
  }

  /** A single vertex gives 0 (the one-vertex guard of `minCutNIAlgorithm`); so does the empty graph, whose ordering is null. */
  lemma MinCutTrivial(g: Graph)
    requires WellFormed(g) && IdsInRange(g) && |g.vertices| <= 1
    ensures MinCutNI(g) == 0
  {
  }

  /** The result is 0 exactly when the graph has fewer than two vertices or is disconnected. */
  lemma MinCutZero(g: Graph)
    requires Simple(g)
    ensures MinCutNI(g) == 0 <==> |g.vertices| <= 1 || Disconnected(g)
  {
    if |g.vertices| >= 2 {
      MinCutCorrect(g);
    }
  }

  /** With two vertices and no self-loops the result is the number of parallel edges between them. */
  lemma MinCutTwoVertices(g: Graph)
    requires Simple(g) && |g.vertices| == 2
    ensures MinCutNI(g) == Multiplicity(g, g.vertices[0], g.vertices[1])
  {
    var v0, v1 := g.vertices[0], g.vertices[1];
    forall e | e in g.edges ensures Holds(Touching(v0), e) <==> Holds(Joining(v0, v1), e) {
    }
    CountSame(g.edges, Touching(v0), Joining(v0, v1));
  }
}

=== FILE: multigraph.dfy ===
/**
 * The undirected multigraph the min-cut code works on: a vertex list and a sequence of
 * edge objects. Two edges with the same endpoints are still two edges (each
 * `new UndirectedEdge()` is a distinct object), so counting is over the sequence.
 */
module Multigraph {
  import opened Seqs

  /** Size of the per-vertex counter table of the ordering step; vertex ids must lie below it. */
  const MaxVertices: int := 22

  datatype Edge = Edge(first: int, second: int)

  /** `vertices` lists every vertex once, in insertion order. */
  datatype Graph = Graph(vertices: seq<int>, edges: seq<Edge>)

  /** The endpoint of `e` that is not `v` (or `v` again for a self-loop at `v`). */
  function Other(e: Edge, v: int): int {
    if e.first == v then e.second else e.first
  }

  /** Which edges to count. */
  datatype Selector =
    | Touching(v: int)              // v is an endpoint (a self-loop at v counts once)
    | Joining(a: int, b: int)       // the endpoints are a and b, in either order
    | Linking(x: int, p: set<int>)  // one endpoint is x and the other lies in p
    | Crossing(s: set<int>)         // exactly one endpoint lies in s
    | Inside(t: set<int>)           // both endpoints lie in t
    | Both(l: Selector, r: Selector)
    | Not(n: Selector)
    | Redirects(from: int, to: int, q: Selector)
      // e touches `from`, its other endpoint x is not `to`, and the edge x-`to` satisfies q

  predicate Holds(q: Selector, e: Edge) {
    match q
    case Touching(v) => e.first == v || e.second == v
    case Joining(a, b) => (e.first == a && e.second == b) || (e.first == b && e.second == a)
    case Linking(x, p) => (e.first == x && e.second in p) || (e.second == x && e.first in p)
    case Crossing(s) => (e.first in s) != (e.second in s)
    case Inside(t) => e.first in t && e.second in t
    case Both(l, r) => Holds(l, e) && Holds(r, e)
    case Not(n) => !Holds(n, e)
    case Redirects(from, to, q) =>
      (e.first == from || e.second == from) && Other(e, from) != to && Holds(q, Edge(Other(e, from), to))
  }

  /** Number of edges of `es` selected by `q`, parallel edges counted separately. */
  function Count(es: seq<Edge>, q: Selector): (n: nat)
    ensures n <= |es|
  {
    if |es| == 0 then 0 else (if Holds(q, es[0]) then 1 else 0) + Count(es[1..], q)
  }

  /** The edges of `es` selected by `q`, in their original order. */
  function Filter(es: seq<Edge>, q: Selector): (r: seq<Edge>)
    ensures forall e :: e in r <==> e in es && Holds(q, e)
    ensures |r| == Count(es, q)
  {
    if |es| == 0 then []
    else if Holds(q, es[0]) then [es[0]] + Filter(es[1..], q)
    else Filter(es[1..], q)
  }

  /** Number of edges incident to `v` (`getIncidentEdges(v).size()`). */
  function Degree(g: Graph, v: int): nat {
    Count(g.edges, Touching(v))
  }

  /** Number of parallel edges between `a` and `b`. */
  function Multiplicity(g: Graph, a: int, b: int): nat {
    Count(g.edges, Joining(a, b))
  }

  /** Number of edges with exactly one endpoint in `s`. */
  function CutSize(g: Graph, s: set<int>): nat {
    Count(g.edges, Crossing(s))
  }

  function VertexSet(g: Graph): set<int> {
    Elems(g.vertices)
  }

  /** Vertices are listed once and every edge joins listed vertices (the graph library's invariant). */
  ghost predicate WellFormed(g: Graph) {
    && Distinct(g.vertices)
    && forall e :: e in g.edges ==> e.first in g.vertices && e.second in g.vertices
  }

  /** Every vertex id indexes the 22-slot counter table. */
  ghost predicate IdsInRange(g: Graph) {
    forall v :: v in g.vertices ==> 0 <= v < MaxVertices
  }

  ghost predicate Loopless(g: Graph) {
    forall e :: e in g.edges ==> e.first != e.second
  }

  /** `s` splits the vertex set into two non-empty sides. */
  ghost predicate IsCut(g: Graph, s: set<int>) {
    s <= VertexSet(g) && s != {} && VertexSet(g) - s != {}
  }

  /** Some split of the vertices has no edge across it. */
  ghost predicate Disconnected(g: Graph) {
    exists s :: IsCut(g, s) && CutSize(g, s) == 0
  }

  /** `removeVertex(v)`: drops `v` and every edge incident to it. */
  function RemoveVertex(g: Graph, v: int): (r: Graph)
    ensures VertexSet(r) == VertexSet(g) - {v}
    ensures forall e :: e in r.edges <==> e in g.edges && !Holds(Touching(v), e)
    ensures WellFormed(g) ==> WellFormed(r)
    ensures WellFormed(g) && v in g.vertices ==> |r.vertices| == |g.vertices| - 1
    ensures |r.edges| == |g.edges| - Degree(g, v)
  {
    CountComplement(g.edges, Touching(v));
    Graph(Remove(g.vertices, v), Filter(g.edges, Not(Touching(v))))
  }

  // ---------------------------------------------------------------------------
  // Counting lemmas, stated once for every selector.

  lemma {:induction false} CountAppend(a: seq<Edge>, b: seq<Edge>, q: Selector)
    ensures Count(a + b, q) == Count(a, q) + Count(b, q)
  {
    if |a| == 0 {
      assert a + b == b;
    } else {
      assert (a + b)[1..] == a[1..] + b;
      CountAppend(a[1..], b, q);
    }
  }

  lemma {:induction false} FilterAppend(a: seq<Edge>, b: seq<Edge>, q: Selector)
    ensures Filter(a + b, q) == Filter(a, q) + Filter(b, q)
  {
    if |a| == 0 {
      assert a + b == b;
    } else {
      assert (a + b)[1..] == a[1..] + b;
      FilterAppend(a[1..], b, q);
    }
  }

  /** Counting the filtered edges is counting with both conditions. */
  lemma {:induction false} CountFilter(es: seq<Edge>, p: Selector, q: Selector)
    ensures Count(Filter(es, p), q) == Count(es, Both(p, q))
  {
    if |es| > 0 {
      CountFilter(es[1..], p, q);
      if Holds(p, es[0]) {
        assert ([es[0]] + Filter(es[1..], p))[1..] == Filter(es[1..], p);
      }
    }
  }

  /** If `p` implies `q` on every edge, `p` selects no more edges than `q`. */
  lemma {:induction false} CountMono(es: seq<Edge>, p: Selector, q: Selector)
    requires forall e :: e in es && Holds(p, e) ==> Holds(q, e)
    ensures Count(es, p) <= Count(es, q)
  {
    if |es| > 0 {
      CountMono(es[1..], p, q);
    }
  }

  /** If `q` selects exactly the edges selected by one of `p1`, `p2`, the counts add up. */
  lemma {:induction false} CountSplit(es: seq<Edge>, q: Selector, p1: Selector, p2: Selector)
    requires forall e :: e in es ==> (Holds(q, e) <==> Holds(p1, e) || Holds(p2, e))
    requires forall e :: e in es ==> !(Holds(p1, e) && Holds(p2, e))
    ensures Count(es, q) == Count(es, p1) + Count(es, p2)
  {
    if |es| > 0 {
      var e, rest := es[0], es[1..];
      assert e in es;
      assert forall x :: x in rest ==> x in es;
      CountSplit(rest, q, p1, p2);
      var hq, h1, h2 := Holds(q, e), Holds(p1, e), Holds(p2, e);
      assert (hq <==> h1 || h2) && !(h1 && h2);
      assert Count(es, q) == (if hq then 1 else 0) + Count(rest, q);
      assert Count(es, p1) == (if h1 then 1 else 0) + Count(rest, p1);
      assert Count(es, p2) == (if h2 then 1 else 0) + Count(rest, p2);
    }
  }

  /** Two disjoint selections that both lie within `q` count no more than `q`. */
  lemma {:induction false} CountDisjointSum(es: seq<Edge>, p1: Selector, p2: Selector, q: Selector)
    requires forall e :: e in es ==> !(Holds(p1, e) && Holds(p2, e))
    requires forall e :: e in es && Holds(p1, e) ==> Holds(q, e)
    requires forall e :: e in es && Holds(p2, e) ==> Holds(q, e)
    ensures Count(es, p1) + Count(es, p2) <= Count(es, q)
  {
    if |es| > 0 {
      var e, rest := es[0], es[1..];
      assert e in es;
      assert forall x :: x in rest ==> x in es;
      CountDisjointSum(rest, p1, p2, q);
      assert Count(es, q) == (if Holds(q, e) then 1 else 0) + Count(rest, q);
      assert Count(es, p1) == (if Holds(p1, e) then 1 else 0) + Count(rest, p1);
      assert Count(es, p2) == (if Holds(p2, e) then 1 else 0) + Count(rest, p2);
    }
  }

  /** Every edge is either selected by `q` or by `Not(q)`. */
  lemma {:induction false} CountComplement(es: seq<Edge>, q: Selector)
    ensures Count(es, q) + Count(es, Not(q)) == |es|
  {
    if |es| > 0 {
      CountComplement(es[1..], q);
    }
  }

  /** Selectors that agree on every edge count the same. */
  lemma CountSame(es: seq<Edge>, p: Selector, q: Selector)
    requires forall e :: e in es ==> (Holds(p, e) <==> Holds(q, e))
    ensures Count(es, p) == Count(es, q)
  {
    CountMono(es, p, q);
    CountMono(es, q, p);
  }

  lemma {:induction false} CountNone(es: seq<Edge>, q: Selector)
    requires forall e :: e in es ==> !Holds(q, e)
    ensures Count(es, q) == 0
  {
    if |es| > 0 {
      CountNone(es[1..], q);
    }
  }

  lemma {:induction false} CountAll(es: seq<Edge>, q: Selector)
    requires forall e :: e in es ==> Holds(q, e)
    ensures Count(es, q) == |es|
  {
    if |es| > 0 {
      CountAll(es[1..], q);
    }
  }

  /** A positive count has a witness edge. */
  lemma {:induction false} CountWitness(es: seq<Edge>, q: Selector) returns (e: Edge)
    requires Count(es, q) > 0
    ensures e in es && Holds(q, e)
  {
    if Holds(q, es[0]) {
      e := es[0];
    } else {
      e := CountWitness(es[1..], q);
    }
  }

  /** A selected edge makes the count positive. */
  lemma {:induction false} CountPositive(es: seq<Edge>, q: Selector, e: Edge)
    requires e in es && Holds(q, e)
    ensures Count(es, q) > 0
  {
    if es[0] != e {
      CountPositive(es[1..], q, e);
    }
  }

  // ---------------------------------------------------------------------------
  // Facts about cuts.

  /** In a graph without self-loops the cut around one vertex is its degree. */
  lemma SingletonCut(g: Graph, v: int)
    requires Loopless(g)
    ensures CutSize(g, {v}) == Degree(g, v)
  {
    CountSame(g.edges, Crossing({v}), Touching(v));
  }

  /** Both sides of a split are crossed by the same edges. */
  lemma CutComplement(g: Graph, s: set<int>)
    requires WellFormed(g)
    ensures CutSize(g, VertexSet(g) - s) == CutSize(g, s)
  {
    CountSame(g.edges, Crossing(VertexSet(g) - s), Crossing(s));
  }
}

=== FILE: network.dfy ===
/**
 * The reliability network: nodes and links, at most one link per pair of nodes, as the
 * simple undirected graph of the source keeps them.
 */
module Network {
  import opened Wrappers
  import opened Seqs
  import opened Link

  datatype Wire = Wire(u: int, v: int, link: NetworkLink)

  datatype Network = Network(nodes: seq<int>, wires: seq<Wire>)

  predicate Joins(w: Wire, a: int, b: int) {
    (w.u == a && w.v == b) || (w.u == b && w.v == a)
  }

  /** Position of the first link between `a` and `b` at or after `i`. */
  function FindWireFrom(ws: seq<Wire>, a: int, b: int, i: nat): (r: Option<nat>)
    requires i <= |ws|
    ensures r.Some? ==> i <= r.value < |ws| && Joins(ws[r.value], a, b)
    ensures r.None? ==> forall k :: i <= k < |ws| ==> !Joins(ws[k], a, b)
    decreases |ws| - i
  {
    if i == |ws| then None
    else if Joins(ws[i], a, b) then Some(i)
    else FindWireFrom(ws, a, b, i + 1)
  }

  /** `findEdge(a, b)`; `isNeighbor(a, b)` is `FindWire(..).Some?`. */
  function FindWire(ws: seq<Wire>, a: int, b: int): (r: Option<nat>)
    ensures r.Some? ==> r.value < |ws| && Joins(ws[r.value], a, b)
    ensures r.None? <==> forall k :: 0 <= k < |ws| ==> !Joins(ws[k], a, b)
  {
    FindWireFrom(ws, a, b, 0)
  }

  /** Links of node `a` to the nodes after it up to `n`, in increasing order. */
  function Row(a: int, n: int, d: real): (r: seq<Wire>)
    ensures |r| == if a < n then n - a else 0
    ensures forall k :: 0 <= k < |r| ==> r[k] == Wire(a, a + 1 + k, NewLink(d))
  {
    seq(if a < n then n - a else 0, k => Wire(a, a + 1 + k, NewLink(d)))
  }

  /** The rows of nodes 1..i-1. */
  function Rows(i: int, n: int, d: real): seq<Wire>
    decreases i
  {
    if i <= 1 then [] else Rows(i - 1, n, d) + Row(i - 1, n, d)
  }

  /** Reference value: one fresh up link per pair a < b of nodes 1..n, row by row. */
  function CompleteWires(n: int, d: real): seq<Wire> {
    Rows(n + 1, n, d)
  }

  lemma {:induction false} RowsMembers(i: int, n: int, d: real)
    ensures forall w :: w in Rows(i, n, d) <==>
      1 <= w.u < i && w.u < w.v <= n && w.link == NewLink(d)
    decreases i
  {
    if i > 1 {
      RowsMembers(i - 1, n, d);
      var r := Row(i - 1, n, d);
      forall w: Wire | w.u == i - 1 && w.u < w.v <= n && w.link == NewLink(d) ensures w in r {
        assert r[w.v - i] == w;
      }
    }
  }

  /**
   * `constructCompleteNetwork(n, d)`: nodes 1..n; for every ordered pair i != j, a link is
   * added unless i and j are already neighbours.
   */
  method ConstructCompleteNetwork(n: int, d: real) returns (net: Network)
    ensures net.nodes == Range(1, n + 1)
    ensures net.wires == CompleteWires(n, d)
  {
    var top := if n >= 1 then n + 1 else 1;
    var nodes := [];
    var i := 1;
    while i <= n
      invariant 1 <= i <= top && nodes == Range(1, i)
    {
      nodes := nodes + [i];
      i := i + 1;
    }
    var wires := [];
    i := 1;
    while i <= n
      invariant 1 <= i <= top && wires == Rows(i, n, d)
    {
      var j := 1;
      RowsMembers(i, n, d);
      while j <= n
        invariant 1 <= j <= n + 1
        invariant wires == Rows(i, n, d) + Row(i, j - 1, d)
      {
        if j < i {
          assert Wire(j, i, NewLink(d)) in Rows(i, n, d);
          assert Wire(j, i, NewLink(d)) in wires;
        }
        if i != j && FindWire(wires, i, j).None? {
          assert i < j;
          assert Row(i, j, d) == Row(i, j - 1, d) + [Wire(i, j, NewLink(d))];
          wires := wires + [Wire(i, j, NewLink(d))];
        } else {
          assert Row(i, j, d) == Row(i, j - 1, d);
        }
        j := j + 1;
      }
      i := i + 1;
    }
    net := Network(nodes, wires);
  }

  // ---------------------------------------------------------------------------
  // The complete network.

  function Choose2(n: int): int {
    n * (n - 1) / 2
  }

  lemma {:induction false} RowsLength(i: int, n: int, d: real)
    requires 1 <= i <= n + 1
    ensures |Rows(i, n, d)| == Choose2(n) - Choose2(n - i + 1)
    decreases i
  {
    if i > 1 {
      RowsLength(i - 1, n, d);
      assert (n - i + 2) * (n - i + 1) == (n - i + 1) * (n - i) + 2 * (n - i + 1);
    }
  }

  /** n(n-1)/2 links. */
  lemma CompleteCount(n: int, d: real)
    requires n >= 0
    ensures |CompleteWires(n, d)| == n * (n - 1) / 2
  {
    RowsLength(n + 1, n, d);
  }

  /**
   * Every link joins two different nodes of 1..n, is up and has the given reliability; every
   * pair of different nodes has a link; and no pair has two.
   */
  lemma CompleteShape(n: int, d: real)
    ensures forall w :: w in CompleteWires(n, d) ==>
      1 <= w.u < w.v <= n && w.link.status && w.link.reliability == d
    ensures forall a, b :: 1 <= a <= n && 1 <= b <= n && a != b ==>
      FindWire(CompleteWires(n, d), a, b).Some?
    ensures forall k1, k2 :: 0 <= k1 < k2 < |CompleteWires(n, d)| ==>
      !Joins(CompleteWires(n, d)[k2], CompleteWires(n, d)[k1].u, CompleteWires(n, d)[k1].v)
  {
    var ws := CompleteWires(n, d);
    RowsMembers(n + 1, n, d);
    forall a, b | 1 <= a <= n && 1 <= b <= n && a != b
      ensures FindWire(ws, a, b).Some?
    {
      var w := if a < b then Wire(a, b, NewLink(d)) else Wire(b, a, NewLink(d));
      assert w in ws;
    }
    RowsSorted(n + 1, n, d);
  }

  /** `w1`'s pair comes strictly before `w2`'s in lexicographic order. */
  predicate PairBefore(w1: Wire, w2: Wire) {
    w1.u < w2.u || (w1.u == w2.u && w1.v < w2.v)
  }

  /** The rows list pairs in strictly increasing lexicographic order. */
  lemma {:induction false} RowsSorted(i: int, n: int, d: real)
    ensures forall k1, k2 :: 0 <= k1 < k2 < |Rows(i, n, d)| ==> PairBefore(Rows(i, n, d)[k1], Rows(i, n, d)[k2])
    ensures forall w :: w in Rows(i, n, d) ==> w.u < w.v
    decreases i
  {
    if i > 1 {
      RowsSorted(i - 1, n, d);
      RowsMembers(i - 1, n, d);
      var a: seq<Wire>, b: seq<Wire> := Rows(i - 1, n, d), Row(i - 1, n, d);
      forall k1, k2 | 0 <= k1 < k2 < |a + b| ensures PairBefore((a + b)[k1], (a + b)[k2]) {
        if k1 < |a| && k2 >= |a| {
          assert (a + b)[k1] in a;
        }
      }
    }
  }
}

=== FILE: network_design.dfy ===
/**
 * Capacity planning: a design of N nodes with random traffic demands, a unit-cost matrix in
 * which each node has k cheap outgoing links, the flow obtained by routing every demand along
 * a given path, and the total cost of that flow.
 */
module NetworkDesign {
  import opened Wrappers
  import opened Seqs
  import opened EdgeMatrix

  const DefaultNumberOfNodes: int := 30
  const DefaultNumberOfLowCostEdge: int := 5
  const MaxDemand: int := 4
  const LowCost: int := 1
  const HighCost: int := 300

  /** The modelled fields; a matrix is `None` until its setter has run (Java's `null`). */
  datatype Design = Design(
    numberOfNodes: int,
    numberOfLowCostEdge: int,
    trafficDemand: Option<Matrix>,
    unitCost: Option<Matrix>,
    flow: Option<Matrix>,
    totalCost: int)

  /** `new NetworkDesign(n, k)`: stores both numbers as given, without any check. */
  function NewDesign(n: int, k: int): (d: Design)
    ensures d.numberOfNodes == n && d.numberOfLowCostEdge == k
    ensures d.trafficDemand.None? && d.unitCost.None? && d.flow.None? && d.totalCost == 0
  {
    Design(n, k, None, None, None, 0)
  }

  /** `new NetworkDesign()`: 30 nodes, 5 cheap links per node. */
  function DefaultDesign(): (d: Design)
    ensures d.numberOfNodes == DefaultNumberOfNodes && d.numberOfLowCostEdge == DefaultNumberOfLowCostEdge
    ensures Feasible(d)
  {
    NewDesign(DefaultNumberOfNodes, DefaultNumberOfLowCostEdge)
  }

  /**
   * The unit-cost matrix can be generated: N is a valid array size and each row has at least
   * k positions other than its own to choose the cheap links from.
   */
  predicate Feasible(d: Design) {
    d.numberOfNodes >= 0 && (d.numberOfNodes == 0 || d.numberOfLowCostEdge <= d.numberOfNodes - 1)
  }

  // ---------------------------------------------------------------------------
  // Setters with validation.

  function SetNumberOfNodes(d: Design, n: int): (r: Result<Design, string>)
    ensures r.Failure? <==> n <= 0
    ensures r.Success? ==> r.value.numberOfNodes == n
    ensures r.Success? ==> r.value.(numberOfNodes := d.numberOfNodes) == d
  {
    if n <= 0 then Failure("number of nodes must be a positive number")
    else Success(d.(numberOfNodes := n))
  }

  function SetNumberOfLowCostEdge(d: Design, n: int): (r: Result<Design, string>)
    ensures r.Failure? <==> n <= 0 || n >= d.numberOfNodes
    ensures r.Success? ==> r.value.numberOfLowCostEdge == n
    ensures r.Success? ==> r.value.(numberOfLowCostEdge := d.numberOfLowCostEdge) == d
  {
    if n <= 0 || n >= d.numberOfNodes then
      Failure("number of low cost edege must be a positive number, and must be less than number of nodes")
    else Success(d.(numberOfLowCostEdge := n))
  }

  /**
   * Right after a successful `setNumberOfLowCostEdge` call the unit costs can be generated.
   * A later `setNumberOfNodes` call can undo this (see `NodesSetterSkipsCheck`).
   */
  lemma SetterEnsuresFeasible(d: Design, n: int)
    requires d.numberOfNodes >= 0 && SetNumberOfLowCostEdge(d, n).Success?
    ensures Feasible(SetNumberOfLowCostEdge(d, n).value)
    ensures 0 < SetNumberOfLowCostEdge(d, n).value.numberOfLowCostEdge < d.numberOfNodes
  {
  }

  /**
   * The two-argument constructor skips the setter's check: with three nodes and three cheap
   * links per node, any set of distinct columns drawn for row `i` (never `i` itself) stays
   * below three, so the draw loop of `setUnitCost` never reaches its count.
   */
  lemma ConstructorSkipsCheck(i: int, picked: set<int>)
    requires 0 <= i < 3
    requires forall x :: x in picked ==> 0 <= x < 3 && x != i
    ensures !Feasible(NewDesign(3, 3))
    ensures SetNumberOfLowCostEdge(NewDesign(3, 0), 3).Failure?
    ensures |picked| < NewDesign(3, 3).numberOfLowCostEdge
  {
    var others := {0, 1, 2} - {i};
    assert |others| == 2 by {
      if i == 0 { assert others == {1, 2}; }
      else if i == 1 { assert others == {0, 2}; }
      else { assert others == {0, 1}; }
    }
    forall x | x in picked ensures x in others {
      assert x == 0 || x == 1 || x == 2;
    }
    SubsetCard(picked, others);
  }

  /**
   * `setNumberOfNodes` does not look at the low-cost count. Shrinking the node count to `n`
   * at or below it succeeds, and afterwards any set of distinct columns drawn for a row `i`
   * (never `i` itself) stays below the count, so the draw loop of `setUnitCost` never ends.
   * For example, 10 nodes with 5 cheap links per node, shrunk to 3 nodes.
   */
  lemma NodesSetterSkipsCheck(d: Design, n: int, i: int, picked: set<int>)
    requires 0 < n <= d.numberOfLowCostEdge
    requires 0 <= i < n
    requires forall x :: x in picked ==> 0 <= x < n && x != i
    ensures SetNumberOfNodes(d, n).Success? && !Feasible(SetNumberOfNodes(d, n).value)
    ensures |picked| < SetNumberOfNodes(d, n).value.numberOfLowCostEdge
    ensures SetNumberOfLowCostEdge(NewDesign(10, 0), 5).Success?
    ensures !Feasible(SetNumberOfNodes(SetNumberOfLowCostEdge(NewDesign(10, 0), 5).value, 3).value)
  {
    var others := Elems(Range(0, n)) - {i};
    RangeElems(0, n);
    DistinctCard(Range(0, n));
    assert i in Elems(Range(0, n));
    assert |others| == n - 1;
    forall x | x in picked ensures x in others {
      assert x in Range(0, n);
    }
    SubsetCard(picked, others);
  }

  /** `setNumberOfNodes` that also rejects a node count the low-cost count does not fit in. */
  function SetNumberOfNodesChecked(d: Design, n: int): (r: Result<Design, string>)
    ensures r.Failure? <==> n <= 0 || d.numberOfLowCostEdge >= n
    ensures r.Success? ==> Feasible(r.value)
    ensures r.Success? ==> r.value.numberOfNodes == n && r.value.(numberOfNodes := d.numberOfNodes) == d
  {
    if n <= 0 then Failure("number of nodes must be a positive number")
    else if d.numberOfLowCostEdge >= n then
      Failure("number of nodes must be greater than number of low cost edge")
    else Success(d.(numberOfNodes := n))
  }

  /** The constructor with the setters' checks applied to its arguments. */
  function NewCheckedDesign(n: int, k: int): (r: Result<Design, string>)
    ensures r.Success? <==> n > 0 && 0 < k < n
    ensures r.Success? ==> Feasible(r.value) && r.value == NewDesign(n, k)
  {
    var base := NewDesign(n, 0);
    match SetNumberOfNodesChecked(base, n)
    case Failure(e) => Failure(e)
    case Success(withNodes) => SetNumberOfLowCostEdge(withNodes, k)
  }

  // ---------------------------------------------------------------------------
  // Random draws.

  /**
   * `randomGen(range)`: `(int) ((range + 1) * Math.random())` with `u` the value of
   * `Math.random()`; the cast truncates, which for a non-negative value is the floor.
   */
  function RandomGen(range: int, u: real): (r: int)
    requires range >= 0 && 0.0 <= u < 1.0
    ensures 0 <= r <= range
  {
    var x := (range + 1) as real * u;
    assert x - (range + 1) as real == (range + 1) as real * (u - 1.0);
    x.Floor
  }

  /** Every value of the documented range is drawn for some `Math.random()` value. */
  lemma RandomGenOnto(range: int, x: int) returns (u: real)
    requires 0 <= x <= range
    ensures 0.0 <= u < 1.0 && RandomGen(range, u) == x
  {
    u := x as real / (range + 1) as real;
    assert (range + 1) as real * u == x as real;
  }

  // ---------------------------------------------------------------------------
  // Traffic demand.

  /** N x N, zero on the diagonal, every other cell a demand between 0 and 4. */
  predicate IsDemand(m: Matrix, n: int) {
    && |m| == n && Square(m) && ZeroDiagonal(m)
    && forall i, j :: 0 <= i < n && 0 <= j < n && i != j ==> 0 <= m[i][j] <= MaxDemand
  }

  predicate DemandRow(row: seq<int>, i: int, n: int) {
    |row| == n && forall j :: 0 <= j < n ==> if i == j then row[j] == 0 else 0 <= row[j] <= MaxDemand
  }

  method SetTrafficDemand(d: Design) returns (d': Design)
    requires d.numberOfNodes >= 0
    ensures d'.trafficDemand.Some? && IsDemand(d'.trafficDemand.value, d.numberOfNodes)
    ensures d' == d.(trafficDemand := d'.trafficDemand)
  {
    var n := d.numberOfNodes;
    var m: Matrix := [];
    var i := 0;
    while i < n
      invariant 0 <= i <= n && |m| == i
      invariant forall r :: 0 <= r < i ==> DemandRow(m[r], r, n)
    {
      var row: seq<int> := [];
      var j := 0;
      while j < n
        invariant 0 <= j <= n && |row| == j
        invariant forall c :: 0 <= c < j ==> if i == c then row[c] == 0 else 0 <= row[c] <= MaxDemand
      {
        var v := 0;
        if i != j {
          var u: real :| 0.0 <= u < 1.0;
          v := RandomGen(MaxDemand, u);
        }
        row := row + [v];
        j := j + 1;
      }
      m := m + [row];
      i := i + 1;
    }
    d' := d.(trafficDemand := Some(m));
  }

  // ---------------------------------------------------------------------------
  // Unit cost.

  /** Positions of the cheap links of a row. */
  function LowCells(row: seq<int>): set<int> {
    set j | 0 <= j < |row| && row[j] == LowCost
  }

  /**
   * Row `i` of a unit-cost matrix: every cell cheap or expensive, the own position expensive,
   * and exactly k (or none, for k <= 0) cheap cells.
   */
  predicate UnitCostRow(row: seq<int>, i: int, n: int, k: int) {
    && |row| == n && 0 <= i < n && row[i] == HighCost
    && (forall j :: 0 <= j < n ==> row[j] == LowCost || row[j] == HighCost)
    && |LowCells(row)| == (if k > 0 then k else 0)
  }

  predicate IsUnitCost(c: Matrix, n: int, k: int) {
    |c| == n && Square(c) && forall i :: 0 <= i < n ==> UnitCostRow(c[i], i, n, k)
  }

  /** The n x n matrix with every cell `v` (the first loop of `setUnitCost`). */
  function Filled(n: nat, v: int): (r: Matrix)
    ensures |r| == n && Square(r)
    ensures forall i, j :: 0 <= i < n && 0 <= j < n ==> r[i][j] == v
  {
    seq(n, _ => seq(n, _ => v))
  }

  /**
   * The draw loop of one row: keep drawing `randomGen(N - 1)` until k distinct positions other
   * than `i` are collected. Rejected draws change nothing, so only accepted ones are modelled.
   */
  method PickLowCost(n: int, k: int, i: int) returns (indices: set<int>)
    requires 0 <= i < n && k <= n - 1
    ensures |indices| == if k > 0 then k else 0
    ensures forall x :: x in indices ==> 0 <= x < n && x != i
  {
    indices := {};
    while |indices| < k
      invariant |indices| <= if k > 0 then k else 0
      invariant forall x :: x in indices ==> 0 <= x < n && x != i
      decreases k - |indices|
    {
      assert indices * {i} == {};
      ghost var free := FreeIndex(indices + {i}, n);
      ghost var w := RandomGenOnto(n - 1, free);
      var u: real :| 0.0 <= u < 1.0 && RandomGen(n - 1, u) != i && RandomGen(n - 1, u) !in indices;
      indices := indices + {RandomGen(n - 1, u)};
    }
  }

  method SetUnitCost(d: Design) returns (d': Design)
    requires Feasible(d)
    ensures d'.unitCost.Some? && IsUnitCost(d'.unitCost.value, d.numberOfNodes, d.numberOfLowCostEdge)
    ensures d' == d.(unitCost := d'.unitCost)
  {
    var n, k := d.numberOfNodes, d.numberOfLowCostEdge;
    var cost := Filled(n, HighCost);
    var i := 0;
    while i < n
      invariant 0 <= i <= n && |cost| == n && Square(cost)
      invariant forall r :: 0 <= r < i ==> UnitCostRow(cost[r], r, n, k)
      invariant forall r, j :: i <= r < n && 0 <= j < n ==> cost[r][j] == HighCost
    {
      var indices := PickLowCost(n, k, i);
      var row := seq(n, j requires 0 <= j < n => if j in indices then LowCost else cost[i][j]);
      assert LowCells(row) == indices;
      cost := cost[i := row];
      i := i + 1;
    }
    d' := d.(unitCost := Some(cost));
  }

  // ---------------------------------------------------------------------------
  // Flow.

  /** A directed edge of a shortest path. */
  datatype Arc = Arc(from: int, to: int)

  /** Shortest paths, as the routing step supplies them: `None` when t is unreachable from s. */
  type Routes = (int, int) -> Option<seq<Arc>>

  predicate ArcsIn(p: seq<Arc>, n: int) {
    forall e :: e in p ==> 0 <= e.from < n && 0 <= e.to < n
  }

  /** Every supplied path uses only edges between the n nodes. */
  predicate RoutesIn(routes: Routes, n: int) {
    forall s, t :: 0 <= s < n && 0 <= t < n && routes(s, t).Some? ==> ArcsIn(routes(s, t).value, n)
  }

  /** Number of times the path uses the edge a -> b. */
  function Occurrences(p: seq<Arc>, a: int, b: int): nat {
    if |p| == 0 then 0 else Occurrences(p[..|p| - 1], a, b) + (if p[|p| - 1] == Arc(a, b) then 1 else 0)
  }

  /** Demand s -> t carried by edge a -> b. */
  function PairLoad(demand: Matrix, routes: Routes, s: int, t: int, a: int, b: int): int
    requires 0 <= s < |demand| && 0 <= t < |demand[s]|
  {
    match routes(s, t)
    case None => 0
    case Some(p) => demand[s][t] * Occurrences(p, a, b)
  }

  /** Demand from s to targets 0..t-1 carried by edge a -> b. */
  function RowLoad(demand: Matrix, routes: Routes, s: int, t: int, a: int, b: int): int
    requires 0 <= s < |demand| && 0 <= t <= |demand[s]|
  {
    if t == 0 then 0 else RowLoad(demand, routes, s, t - 1, a, b) + PairLoad(demand, routes, s, t - 1, a, b)
  }

  /** Reference value: demand from sources 0..s-1 to every target carried by edge a -> b. */
  function Load(demand: Matrix, routes: Routes, s: int, a: int, b: int): int
    requires Square(demand) && 0 <= s <= |demand|
  {
    if s == 0 then 0 else Load(demand, routes, s - 1, a, b) + RowLoad(demand, routes, s - 1, |demand|, a, b)
  }

  /** All flow comes from non-negative demands, so every edge carries a non-negative load. */
  lemma {:induction false} LoadNonNegative(demand: Matrix, routes: Routes, s: int, a: int, b: int)
    requires Square(demand) && NonNegative(demand) && 0 <= s <= |demand|
    ensures Load(demand, routes, s, a, b) >= 0
  {
    if s > 0 {
      LoadNonNegative(demand, routes, s - 1, a, b);
      RowLoadNonNegative(demand, routes, s - 1, |demand|, a, b);
    }
  }

  lemma {:induction false} RowLoadNonNegative(demand: Matrix, routes: Routes, s: int, t: int, a: int, b: int)
    requires Square(demand) && NonNegative(demand) && 0 <= s < |demand| && 0 <= t <= |demand|
    ensures RowLoad(demand, routes, s, t, a, b) >= 0
  {
    if t > 0 {
      RowLoadNonNegative(demand, routes, s, t - 1, a, b);
      assert demand[s][t - 1] >= 0;
    }
  }

  /** Matrices of the same shape as an n x n one. */
  predicate SquareOf(f: Matrix, n: int) {
    |f| == n && Square(f)
  }

  /** The innermost loop: add `x` to the flow of every edge of one path. */
  method AddPath(f: Matrix, p: seq<Arc>, x: int) returns (f': Matrix)
    requires Square(f) && ArcsIn(p, |f|)
    ensures SquareOf(f', |f|)
    ensures forall a, b :: 0 <= a < |f| && 0 <= b < |f| ==> f'[a][b] == f[a][b] + x * Occurrences(p, a, b)
  {
    f' := f;
    var e := 0;
    while e < |p|
      invariant 0 <= e <= |p| && SquareOf(f', |f|)
      invariant forall a, b :: 0 <= a < |f| && 0 <= b < |f| ==> f'[a][b] == f[a][b] + x * Occurrences(p[..e], a, b)
    {
      var arc := p[e];
      assert arc in p;
      var next := SetCell(f', arc.from, arc.to, f'[arc.from][arc.to] + x);
      AddArcStep(f, f', next, p, e, x);
      f' := next;
      e := e + 1;
    }
    assert p[..e] == p;
  }

  /** Adding `x` on the next arc of the path keeps the loop invariant of `AddPath`. */
  lemma AddArcStep(f: Matrix, cur: Matrix, next: Matrix, p: seq<Arc>, e: int, x: int)
    requires Square(f) && 0 <= e < |p| && SquareOf(cur, |f|) && 0 <= p[e].from < |f| && 0 <= p[e].to < |f|
    requires forall a, b :: 0 <= a < |f| && 0 <= b < |f| ==> cur[a][b] == f[a][b] + x * Occurrences(p[..e], a, b)
    requires next == SetCell(cur, p[e].from, p[e].to, cur[p[e].from][p[e].to] + x)
    ensures SquareOf(next, |f|)
    ensures forall a, b :: 0 <= a < |f| && 0 <= b < |f| ==> next[a][b] == f[a][b] + x * Occurrences(p[..e + 1], a, b)
  {
    assert p[..e + 1][..e] == p[..e];
    forall a, b | 0 <= a < |f| && 0 <= b < |f|
      ensures next[a][b] == f[a][b] + x * Occurrences(p[..e + 1], a, b)
    {
      var n := Occurrences(p[..e], a, b);
      var d := if p[e] == Arc(a, b) then 1 else 0;
      assert p[..e + 1][e] == p[e];
      assert Occurrences(p[..e + 1], a, b) == n + d;
      assert x * (n + d) == x * n + x * d;
    }
  }

  /** The loop over targets t for one source s. */
  method AddRow(f: Matrix, demand: Matrix, routes: Routes, s: int) returns (f': Matrix)
    requires SquareOf(f, |demand|) && Square(demand) && RoutesIn(routes, |demand|) && 0 <= s < |demand|
    ensures SquareOf(f', |demand|)
    ensures forall a, b :: 0 <= a < |f| && 0 <= b < |f| ==>
      f'[a][b] == f[a][b] + RowLoad(demand, routes, s, |demand|, a, b)
  {
    f' := f;
    var t := 0;
    while t < |demand|
      invariant 0 <= t <= |demand| && SquareOf(f', |demand|)
      invariant forall a, b :: 0 <= a < |f| && 0 <= b < |f| ==>
        f'[a][b] == f[a][b] + RowLoad(demand, routes, s, t, a, b)
    {
      var route := routes(s, t);
      if route.Some? {
        f' := AddPath(f', route.value, demand[s][t]);
      }
      t := t + 1;
    }
  }

  /**
   * `setFlow` with the shortest paths supplied: a zero N x N flow, then for every source s and
   * target t with a path, the demand s -> t added to each edge of the path. The result is the
   * total load of each edge, and never negative.
   */
  method SetFlow(d: Design, routes: Routes) returns (d': Design)
    requires d.numberOfNodes >= 0 && d.trafficDemand.Some?
    requires SquareOf(d.trafficDemand.value, d.numberOfNodes) && RoutesIn(routes, d.numberOfNodes)
    ensures d'.flow.Some? && SquareOf(d'.flow.value, d.numberOfNodes)
    ensures forall a, b :: 0 <= a < d.numberOfNodes && 0 <= b < d.numberOfNodes ==>
      d'.flow.value[a][b] == Load(d.trafficDemand.value, routes, d.numberOfNodes, a, b)
    ensures NonNegative(d.trafficDemand.value) ==> NonNegative(d'.flow.value)
    ensures d' == d.(flow := d'.flow)
  {
    var n, demand := d.numberOfNodes, d.trafficDemand.value;
    var f := ZeroMatrix(n);
    var s := 0;
    while s < n
      invariant 0 <= s <= n && SquareOf(f, n)
      invariant forall a, b :: 0 <= a < n && 0 <= b < n ==> f[a][b] == Load(demand, routes, s, a, b)
    {
      f := AddRow(f, demand, routes, s);
      s := s + 1;
    }
    if NonNegative(demand) {
      forall a, b | 0 <= a < n && 0 <= b < n ensures f[a][b] >= 0 {
        LoadNonNegative(demand, routes, n, a, b);
      }
    }
    d' := d.(flow := Some(f));
  }

  // ---------------------------------------------------------------------------
  // Total cost.

  /** Sum of flow times unit cost over the first `j` cells of a row. */
  function RowCost(fr: seq<int>, cr: seq<int>, j: int): int
    requires 0 <= j <= |fr| && |fr| <= |cr|
  {
    if j == 0 then 0 else RowCost(fr, cr, j - 1) + fr[j - 1] * cr[j - 1]
  }

  /** The cost matrix has a cell for every flow cell. */
  predicate Covers(c: Matrix, f: Matrix) {
    |f| <= |c| && forall i :: 0 <= i < |f| ==> |f[i]| <= |c[i]|
  }

  /** Reference value: sum of flow times unit cost over the first `i` rows. */
  function CostSum(f: Matrix, c: Matrix, i: int): int
    requires Covers(c, f) && 0 <= i <= |f|
  {
    if i == 0 then 0 else CostSum(f, c, i - 1) + RowCost(f[i - 1], c[i - 1], |f[i - 1]|)
  }

  method SetTotalCost(d: Design) returns (d': Design)
    requires d.flow.Some? && d.unitCost.Some? && Covers(d.unitCost.value, d.flow.value)
    ensures d'.totalCost == CostSum(d.flow.value, d.unitCost.value, |d.flow.value|)
    ensures d' == d.(totalCost := d'.totalCost)
  {
    var f, c := d.flow.value, d.unitCost.value;
    var total := 0;
    var i := 0;
    while i < |f|
      invariant 0 <= i <= |f| && total == CostSum(f, c, i)
    {
      var j := 0;
      var rowTotal := 0;
      while j < |f[i]|
        invariant 0 <= j <= |f[i]| && rowTotal == RowCost(f[i], c[i], j)
      {
        rowTotal := rowTotal + f[i][j] * c[i][j];
        j := j + 1;
      }
      total := total + rowTotal;
      i := i + 1;
    }
    d' := d.(totalCost := total);
  }

  lemma {:induction false} RowCostBounds(fr: seq<int>, cr: seq<int>, j: int)
    requires 0 <= j <= |fr| && |fr| <= |cr|
    requires forall c :: 0 <= c < |fr| ==> fr[c] >= 0 && (cr[c] == LowCost || cr[c] == HighCost)
    ensures RowSum(fr, j) <= RowCost(fr, cr, j) <= HighCost * RowSum(fr, j)
  {
    if j > 0 {
      RowCostBounds(fr, cr, j - 1);
      assert fr[j - 1] <= fr[j - 1] * cr[j - 1] <= HighCost * fr[j - 1];
    }
  }

  lemma {:induction false} CostSumBounds(f: Matrix, c: Matrix, n: int, k: int, i: int)
    requires SquareOf(f, n) && NonNegative(f) && IsUnitCost(c, n, k) && 0 <= i <= n
    ensures RowsSum(f, i) <= CostSum(f, c, i) <= HighCost * RowsSum(f, i)
  {
    if i > 0 {
      CostSumBounds(f, c, n, k, i - 1);
      RowCostBounds(f[i - 1], c[i - 1], |f[i - 1]|);
    }
  }

  /**
   * With unit costs from `setUnitCost` (every cell 1 or 300) and a non-negative flow, the total
   * cost lies between the total flow and 300 times the total flow.
   */
  lemma TotalCostBounds(f: Matrix, c: Matrix, n: int, k: int)
    requires SquareOf(f, n) && NonNegative(f) && IsUnitCost(c, n, k)
    ensures Covers(c, f)
    ensures EdgeCount(f) <= CostSum(f, c, n) <= HighCost * EdgeCount(f)
  {
    CostSumBounds(f, c, n, k, n);
  }
}

=== FILE: network_link.dfy ===
/**
 * `NetworkLink`: one link of the reliability network, with its reliability (a `double`,
 * carried as a `real` and never computed with) and its up/down status.
 */
module Link {

  datatype NetworkLink = NetworkLink(reliability: real, status: bool)

  /** `new NetworkLink(d)`: every new link is up. */
  function NewLink(d: real): (l: NetworkLink)
    ensures l.status && l.reliability == d
  {
    NetworkLink(d, true)
  }

  /** The copy constructor: the copy is a link equal to the original. */
  function CopyLink(o: NetworkLink): (l: NetworkLink)
    ensures l.reliability == o.reliability && l.status == o.status
    ensures l == o
  {
    NetworkLink(o.reliability, o.status)
  }

  /** Setting the reliability touches nothing else; setting the old value back restores the link. */
  function SetReliability(l: NetworkLink, d: real): (r: NetworkLink)
    ensures r.reliability == d && r.status == l.status
    ensures r.(reliability := l.reliability) == l
  {
    l.(reliability := d)
  }

  /** Bringing a link up; a link that is already up is left as it is. */
  function SetLinkUp(l: NetworkLink): (r: NetworkLink)
    ensures r.status && r.reliability == l.reliability
    ensures l.status ==> r == l
  {
    l.(status := true)
  }

  /**
   * Taking a link down; a link that is already down is left as it is, and bringing an up link
   * down and up again gives back the same link.
   */
  function SetLinkDown(l: NetworkLink): (r: NetworkLink)
    ensures !r.status && r.reliability == l.reliability
    ensures !l.status ==> r == l
    ensures l.status ==> SetLinkUp(r) == l
  {
    l.(status := false)
  }

  function ToString(l: NetworkLink): (s: string)
    ensures s == "UP" || s == "DOWN"
  {
    if l.status then "UP" else "DOWN"
  }

  /** Reading the status back from its printed form. */
  function ParseStatus(s: string): bool {
    s == "UP"
  }

  /** The printed form is "UP" exactly for an up link and determines the status. */
  lemma ToStringStatus(l: NetworkLink)
    ensures ToString(l) == "UP" <==> l.status
    ensures ToString(l) == "DOWN" <==> !l.status
    ensures ParseStatus(ToString(l)) == l.status
  {
    assert "DOWN" != "UP" by {
      assert "DOWN"[0] != "UP"[0];
    }
  }
}

=== FILE: seqs.dfy ===
/** Sequences used as ordered collections of distinct items (vertex lists, orderings). */
module Seqs {

  predicate Distinct<T(==)>(s: seq<T>) {
    forall i, j :: 0 <= i < j < |s| ==> s[i] != s[j]
  }

  function Elems<T>(s: seq<T>): set<T> {
    set x | x in s
  }

  /** The integers lo, lo+1, ..., hi-1 in increasing order. */
  function Range(lo: int, hi: int): (r: seq<int>)
    ensures |r| == if lo <= hi then hi - lo else 0
    ensures forall k :: 0 <= k < |r| ==> r[k] == lo + k
  {
    if lo >= hi then [] else seq(hi - lo, k => lo + k)
  }

  /** `s` with every occurrence of `x` dropped, the rest in the original order. */
  function Remove<T(==,!new)>(s: seq<T>, x: T): (r: seq<T>)
    ensures Elems(r) == Elems(s) - {x}
    ensures forall y :: y in r <==> y in s && y != x
    ensures Distinct(s) ==> Distinct(r)
    ensures Distinct(s) && x in s ==> |r| == |s| - 1
    ensures x !in s ==> r == s
  {
    if |s| == 0 then []
    else
      var rest := Remove(s[1..], x);
      assert Elems(s) == {s[0]} + Elems(s[1..]);
      if s[0] == x then
        assert Distinct(s) ==> x !in s[1..];
        rest
      else
        assert Elems([s[0]] + rest) == {s[0]} + Elems(rest);
        assert Distinct(s) ==> s[0] !in rest;
        [s[0]] + rest
  }

  lemma {:induction false} DistinctCard<T>(s: seq<T>)
    requires Distinct(s)
    ensures |Elems(s)| == |s|
  {
    if |s| > 0 {
      DistinctCard(s[1..]);
      assert Elems(s) == {s[0]} + Elems(s[1..]);
      assert s[0] !in Elems(s[1..]);
    }
  }

  /** A distinct sequence drawn from a distinct sequence of the same length lists the same items. */
  lemma SameLengthSameElems<T>(s: seq<T>, t: seq<T>)
    requires Distinct(s) && Distinct(t)
    requires |s| == |t|
    requires forall x :: x in s ==> x in t
    ensures Elems(s) == Elems(t)
  {
    DistinctCard(s);
    DistinctCard(t);
    if Elems(s) != Elems(t) {
      SubsetCard(Elems(s), Elems(t));
    }
  }

  /** A proper subset is strictly smaller, any subset is no larger. */
  lemma {:induction false} SubsetCard<T>(a: set<T>, b: set<T>)
    requires a <= b
    ensures |a| <= |b|
    ensures a != b ==> |a| < |b|
    decreases a
  {
    if a == {} {
      if b != {} {
        var z :| z in b;
        assert |b| >= 1;
      }
    } else {
      var y :| y in a;
      SubsetCard(a - {y}, b - {y});
      if a != b {
        assert a - {y} != b - {y};
      }
    }
  }

  lemma Pick<T>(s: set<T>) returns (x: T)
    requires s != {}
    ensures x in s
  {
    x :| x in s;
  }

  /** Concatenating two distinct sequences with no common item keeps the items distinct. */
  lemma DistinctConcat<T>(a: seq<T>, b: seq<T>)
    requires Distinct(a) && Distinct(b)
    requires forall x :: x in a ==> x !in b
    ensures Distinct(a + b)
  {
    forall i, j | 0 <= i < j < |a + b| ensures (a + b)[i] != (a + b)[j] {
      if i < |a| && j >= |a| {
        assert (a + b)[i] in a;
        assert (a + b)[j] == b[j - |a|];
      }
    }
  }

  /** Fewer than `n` indices leave one of 0..n-1 free. */
  lemma FreeIndex(used: set<int>, n: int) returns (k: int)
    requires |used| < n
    ensures 0 <= k < n && k !in used
  {
    var all := Elems(Range(0, n));
    RangeElems(0, n);
    DistinctCard(Range(0, n));
    if all - used == {} {
      forall x | x in all ensures x in used {
        assert x !in all - used;
      }
      SubsetCard(all, used);
      assert false;
    }
    k := Pick(all - used);
  }

  lemma RangeElems(lo: int, hi: int)
    ensures forall x :: x in Range(lo, hi) <==> lo <= x < hi
    ensures Distinct(Range(lo, hi))
  {
    var r := Range(lo, hi);
    forall x | lo <= x < hi ensures x in r {
      assert r[x - lo] == x;
    }
  }
}

=== FILE: states.dfy ===
/**
 * The reliability experiment's state space: one copy of the complete network per subset of
 * its links, with exactly that subset's links down, labelled with whether the copy is still
 * connected; and the temporary flipping of k of those labels.
 */
module States {
  import opened Wrappers
  import opened Seqs
  import opened Link
  import opened Network
  import opened Connectivity
  import opened Subsets

  // ---------------------------------------------------------------------------
  // Taking links down by their endpoints.

  /** Two link lists with the same endpoints position by position (statuses may differ). */
  predicate SamePairs(ws: seq<Wire>, ws': seq<Wire>) {
    |ws| == |ws'| && forall k :: 0 <= k < |ws| ==> ws[k].u == ws'[k].u && ws[k].v == ws'[k].v
  }

  /** `findEdge` looks only at endpoints, so it cannot tell such lists apart. */
  lemma {:induction false} FindWireFromSamePairs(ws: seq<Wire>, ws': seq<Wire>, a: int, b: int, i: nat)
    requires SamePairs(ws, ws') && i <= |ws|
    ensures FindWireFrom(ws', a, b, i) == FindWireFrom(ws, a, b, i)
    decreases |ws| - i
  {
    if i < |ws| {
      FindWireFromSamePairs(ws, ws', a, b, i + 1);
    }
  }

  lemma FindWireSamePairs(ws: seq<Wire>, ws': seq<Wire>, a: int, b: int)
    requires SamePairs(ws, ws')
    ensures FindWire(ws', a, b) == FindWire(ws, a, b)
  {
    FindWireFromSamePairs(ws, ws', a, b, 0);
  }

  /** `event.findEdge(a, b).setLinkDown()`; the link must exist (Java would throw otherwise). */
  function SetWireDown(ws: seq<Wire>, a: int, b: int): (r: seq<Wire>)
    requires FindWire(ws, a, b).Some?
    ensures SamePairs(ws, r)
    ensures forall k :: 0 <= k < |ws| && k != FindWire(ws, a, b).value ==> r[k] == ws[k]
    ensures !r[FindWire(ws, a, b).value].link.status
  {
    var k := FindWire(ws, a, b).value;
    ws[k := ws[k].(link := SetLinkDown(ws[k].link))]
  }

  /** Link `k` is the one `findEdge` returns for the endpoints of some link in `down`. */
  ghost predicate HitBy(ws: seq<Wire>, k: nat, down: seq<Wire>) {
    exists j :: 0 <= j < |down| && FindWire(ws, down[j].u, down[j].v) == Some(k)
  }

  /** Reference value: `ws` with every link hit by `down` set down, all else as it was. */
  ghost function Down(ws: seq<Wire>, down: seq<Wire>): (r: seq<Wire>)
    ensures SamePairs(ws, r)
  {
    seq(|ws|, k requires 0 <= k < |ws| =>
      if HitBy(ws, k, down) then ws[k].(link := SetLinkDown(ws[k].link)) else ws[k])
  }

  /** Taking one more link down is one more `SetWireDown` on the running list. */
  lemma DownStep(ws: seq<Wire>, down: seq<Wire>, l: Wire)
    requires FindWire(ws, l.u, l.v).Some?
    ensures FindWire(Down(ws, down), l.u, l.v) == FindWire(ws, l.u, l.v)
    ensures Down(ws, down + [l]) == SetWireDown(Down(ws, down), l.u, l.v)
  {
    var cur := Down(ws, down);
    FindWireSamePairs(ws, cur, l.u, l.v);
    var k := FindWire(ws, l.u, l.v).value;
    var lhs, rhs := Down(ws, down + [l]), SetWireDown(cur, l.u, l.v);
    forall i | 0 <= i < |ws| ensures lhs[i] == rhs[i] {
      if i == k {
        assert HitBy(ws, i, down + [l]) by {
          assert (down + [l])[|down|] == l;
        }
      } else {
        if HitBy(ws, i, down + [l]) {
          var j :| 0 <= j < |down + [l]| && FindWire(ws, (down + [l])[j].u, (down + [l])[j].v) == Some(i);
          assert j < |down| && (down + [l])[j] == down[j];
          assert HitBy(ws, i, down);
        }
        if HitBy(ws, i, down) {
          var j :| 0 <= j < |down| && FindWire(ws, down[j].u, down[j].v) == Some(i);
          assert (down + [l])[j] == down[j];
        }
      }
    }
  }

  /**
   * The inner loop of the constructor: for each link of the subset, look up the link with the
   * same endpoints in `event` and set it down.
   */
  method SetLinksDown(event: Network, links: seq<Wire>) returns (r: Network)
    requires forall l :: l in links ==> FindWire(event.wires, l.u, l.v).Some?
    ensures r.nodes == event.nodes
    ensures r.wires == Down(event.wires, links)
  {
    r := event;
    var i := 0;
    assert links[..0] == [];
    assert Down(event.wires, []) == event.wires;
    while i < |links|
      invariant 0 <= i <= |links|
      invariant r.nodes == event.nodes
      invariant r.wires == Down(event.wires, links[..i])
    {
      DownStep(event.wires, links[..i], links[i]);
      assert links[..i + 1] == links[..i] + [links[i]];
      r := r.(wires := SetWireDown(r.wires, links[i].u, links[i].v));
      i := i + 1;
    }
    assert links[..i] == links;
  }

  // ---------------------------------------------------------------------------
  // In the complete network a subset's links are exactly the ones that go down.

  /** In the complete network `findEdge` on a link's own endpoints finds that very link. */
  lemma CompleteFindsItself(n: int, d: real, k: nat)
    requires k < |CompleteWires(n, d)|
    ensures FindWire(CompleteWires(n, d), CompleteWires(n, d)[k].u, CompleteWires(n, d)[k].v) == Some(k)
  {
    var ws := CompleteWires(n, d);
    CompleteShape(n, d);
    var r := FindWire(ws, ws[k].u, ws[k].v);
    assert r.Some?;
    if r.value < k {
      assert Joins(ws[k], ws[r.value].u, ws[r.value].v);
    }
  }

  /**
   * Taking down the links of `s` (drawn from the complete network) sets down exactly those
   * links: a link ends up down iff it is in `s`, and nothing else about any link changes.
   */
  lemma CompleteDownExactly(n: int, d: real, s: seq<Wire>)
    requires forall l :: l in s ==> l in CompleteWires(n, d)
    ensures forall k :: 0 <= k < |CompleteWires(n, d)| ==>
      && Down(CompleteWires(n, d), s)[k].link.reliability == d
      && (Down(CompleteWires(n, d), s)[k].link.status <==> CompleteWires(n, d)[k] !in s)
  {
    var ws := CompleteWires(n, d);
    CompleteShape(n, d);
    forall k | 0 <= k < |ws|
      ensures Down(ws, s)[k].link.status <==> ws[k] !in s
    {
      if ws[k] in s {
        var j :| 0 <= j < |s| && s[j] == ws[k];
        CompleteFindsItself(n, d, k);
        assert HitBy(ws, k, s);
      }
      if HitBy(ws, k, s) {
        var j :| 0 <= j < |s| && FindWire(ws, s[j].u, s[j].v) == Some(k);
        assert s[j] in ws;
        var m :| 0 <= m < |ws| && ws[m] == s[j];
        CompleteFindsItself(n, d, m);
        assert ws[k] == s[j];
      }
    }
  }

  /** No link of the complete network appears twice. */
  lemma CompleteDistinct(n: int, d: real)
    ensures Distinct(CompleteWires(n, d))
  {
    var ws := CompleteWires(n, d);
    CompleteShape(n, d);
    forall k1, k2 | 0 <= k1 < k2 < |ws| ensures ws[k1] != ws[k2] {
      assert Joins(ws[k1], ws[k1].u, ws[k1].v);
    }
  }

  /** Every copy with some links down is still a well-formed network on nodes 1..n. */
  lemma CompleteDownWellFormed(n: int, d: real, s: seq<Wire>)
    ensures WellFormedNet(Network(Range(1, n + 1), Down(CompleteWires(n, d), s)))
  {
    var ws := CompleteWires(n, d);
    var ws' := Down(ws, s);
    CompleteShape(n, d);
    RangeElems(1, n + 1);
    forall w | w in ws' ensures w.u in Range(1, n + 1) && w.v in Range(1, n + 1) {
      var k :| 0 <= k < |ws'| && ws'[k] == w;
      assert ws[k] in ws;
    }
  }

  /** The complete network has links only when it has at least two nodes. */
  lemma CompleteNeedsTwo(n: int, d: real)
    requires |CompleteWires(n, d)| > 0
    ensures n >= 2
  {
    if 0 <= n <= 1 {
      CompleteCount(n, d);
    }
  }

  // ---------------------------------------------------------------------------
  // The constructor.

  /** One network state: a copy of the network and its connectivity label. */
  datatype State = State(event: Network, up: bool)

  /**
   * The constructor: build the complete network, enumerate the subsets of its links and, for
   * each, a fresh complete network with that subset's links down, labelled by `isConnected`.
   */
  method BuildStates(n: int, d: real) returns (network: Network, states: seq<State>)
    ensures network.nodes == Range(1, n + 1) && network.wires == CompleteWires(n, d)
    ensures |states| == |AllSubsets(network.wires)|
    ensures forall i :: 0 <= i < |states| ==>
      states[i].event == Network(network.nodes, Down(network.wires, AllSubsets(network.wires)[i]))
    ensures forall i :: 0 <= i < |states| ==> (states[i].up <==> AllReachable(states[i].event, 1))
  {
    network := ConstructCompleteNetwork(n, d);
    var subsets := LinksSubSet(network.wires);
    states := BuildEach(n, d, subsets);
  }

  /** The loop over the subsets, one state per subset in order. */
  method BuildEach(n: int, d: real, subsets: seq<seq<Wire>>) returns (states: seq<State>)
    requires subsets == AllSubsets(CompleteWires(n, d))
    ensures |states| == |subsets|
    ensures forall j :: 0 <= j < |subsets| ==>
      StateFor(Network(Range(1, n + 1), CompleteWires(n, d)), subsets[j], states[j])
  {
    ghost var network := Network(Range(1, n + 1), CompleteWires(n, d));
    states := [];
    var i := 0;
    while i < |subsets|
      invariant 0 <= i <= |subsets| && |states| == i
      invariant forall j :: 0 <= j < i ==> StateFor(network, subsets[j], states[j])
    {
      var links := subsets[i];
      assert links in subsets;
      var state := BuildState(n, d, links);
      assert StateFor(network, subsets[i], state);
      AppendState(network, subsets, states, state);
      states := states + [state];
      i := i + 1;
    }
  }

  /** The invariant of the constructor's loop survives appending the next state. */
  lemma AppendState(network: Network, subsets: seq<seq<Wire>>, states: seq<State>, state: State)
    requires |states| < |subsets|
    requires forall j :: 0 <= j < |states| ==> StateFor(network, subsets[j], states[j])
    requires StateFor(network, subsets[|states|], state)
    ensures forall j :: 0 <= j < |states| + 1 ==> StateFor(network, subsets[j], (states + [state])[j])
  {
    forall j | 0 <= j < |states| + 1 ensures StateFor(network, subsets[j], (states + [state])[j]) {
      if j < |states| {
        assert (states + [state])[j] == states[j];
      }
    }
  }

  /** `state` is `network` with exactly `links` down, labelled by connectivity from node 1. */
  ghost predicate StateFor(network: Network, links: seq<Wire>, state: State) {
    && state.event == Network(network.nodes, Down(network.wires, links))
    && (state.up <==> AllReachable(state.event, 1))
  }

  /** One pass of the constructor's loop: a fresh complete network with `links` down, and its label. */
  method BuildState(n: int, d: real, links: seq<Wire>) returns (state: State)
    requires links in AllSubsets(CompleteWires(n, d))
    ensures state.event == Network(Range(1, n + 1), Down(CompleteWires(n, d), links))
    ensures state.up <==> AllReachable(state.event, 1)
  {
    CompleteNeedsTwo(n, d);
    SubsetDrawsFrom(CompleteWires(n, d), links);
    CompleteShape(n, d);
    var event := ConstructCompleteNetwork(n, d);
    forall l: Wire | l in links ensures FindWire(event.wires, l.u, l.v).Some? {
      var k :| 0 <= k < |event.wires| && event.wires[k] == l;
      CompleteFindsItself(n, d, k);
    }
    event := SetLinksDown(event, links);
    CompleteDownWellFormed(n, d, links);
    var connected := IsConnected(event);
    assert event.nodes[0] == 1;
    state := State(event, connected);
  }

  /**
   * The state space built by the constructor: 2^(n(n-1)/2) states for n >= 2 nodes (none
   * otherwise), the first with every link up; in state i exactly the links of the i-th subset
   * are down, and the states are pairwise different.
   */
  lemma StateSpace(n: int, d: real, states: seq<State>)
    requires |states| == |AllSubsets(CompleteWires(n, d))|
    requires forall i :: 0 <= i < |states| ==>
      states[i].event == Network(Range(1, n + 1), Down(CompleteWires(n, d), AllSubsets(CompleteWires(n, d))[i]))
    ensures n >= 2 ==> |states| == Pow2(n * (n - 1) / 2)
    ensures n < 2 ==> |states| == 0
    ensures forall i :: 0 <= i < |states| ==> |states[i].event.wires| == |CompleteWires(n, d)|
    ensures forall i, k :: 0 <= i < |states| && 0 <= k < |states[i].event.wires| ==>
      (states[i].event.wires[k].link.status <==> CompleteWires(n, d)[k] !in AllSubsets(CompleteWires(n, d))[i])
    ensures forall i, j :: 0 <= i < j < |states| ==> states[i].event != states[j].event
  {
    var ws := CompleteWires(n, d);
    var subs := AllSubsets(ws);
    AllSubsetsCount(ws);
    if n >= 0 {
      CompleteCount(n, d);
    } else {
      assert ws == [];
    }
    forall i | 0 <= i < |states| ensures forall k :: 0 <= k < |ws| ==>
      (states[i].event.wires[k].link.status <==> ws[k] !in subs[i])
    {
      SubsetDrawsFrom(ws, subs[i]);
      CompleteDownExactly(n, d, subs[i]);
    }
    forall i, j | 0 <= i < j < |states| ensures states[i].event != states[j].event {
      SubsetDrawsFrom(ws, subs[i]);
      SubsetDrawsFrom(ws, subs[j]);
      CompleteDownExactly(n, d, subs[i]);
      CompleteDownExactly(n, d, subs[j]);
      CompleteDistinct(n, d);
      var l := AllSubsetsDistinctSets(ws, i, j);
      var k :| 0 <= k < |ws| && ws[k] == l;
      assert states[i].event.wires[k].link.status != states[j].event.wires[k].link.status;
    }
  }

  // ---------------------------------------------------------------------------
  // Flipping labels and flipping them back.

  /** `states` with the labels at positions `keys` negated. */
  function Flip(states: seq<State>, keys: set<nat>): (r: seq<State>)
    ensures |r| == |states|
  {
    seq(|states|, i requires 0 <= i < |states| =>
      if i in keys then states[i].(up := !states[i].up) else states[i])
  }

  /**
   * `networkReliabilityFlipped(k)` without the floating-point sum: draw distinct random states
   * until k labels are flipped (`during`, what the reliability sum reads), then flip each of
   * them back (`after`). The draw loop only ends when k states exist.
   */
  method FlipAndRestore(states: seq<State>, k: int) returns (flipped: set<nat>, during: seq<State>, after: seq<State>)
    requires k <= |states|
    ensures |flipped| == if k > 0 then k else 0
    ensures forall i :: i in flipped ==> i < |states|
    ensures |during| == |states|
    ensures forall i :: 0 <= i < |states| ==>
      during[i].event == states[i].event && (during[i].up != states[i].up <==> i in flipped)
    ensures after == states
  {
    var keys;
    flipped, keys, during := DrawAndFlip(states, k);
    after := FlipBack(states, flipped, keys, during);
  }

  /** Negating one more label extends the flipped set by its position. */
  lemma FlipOneMore(states: seq<State>, keys: set<nat>, key: nat)
    requires key < |states| && key !in keys
    ensures Flip(states, keys)[key := Flip(states, keys)[key].(up := !Flip(states, keys)[key].up)]
      == Flip(states, keys + {key})
  {
  }

  /** Negating a flipped label again takes its position out of the flipped set. */
  lemma FlipOneBack(states: seq<State>, keys: set<nat>, key: nat)
    requires key < |states| && key in keys
    ensures Flip(states, keys)[key := Flip(states, keys)[key].(up := !Flip(states, keys)[key].up)]
      == Flip(states, keys - {key})
  {
  }

  /** The draw loop: pick distinct random positions and negate their labels until k are flipped. */
  method DrawAndFlip(states: seq<State>, k: int) returns (flipped: set<nat>, keys: seq<nat>, during: seq<State>)
    requires k <= |states|
    ensures |flipped| == if k > 0 then k else 0
    ensures forall i :: i in flipped ==> i < |states|
    ensures Elems(keys) == flipped && Distinct(keys)
    ensures during == Flip(states, flipped)
  {
    flipped := {};
    keys := [];
    during := states;
    while |flipped| < k
      invariant |flipped| <= if k > 0 then k else 0
      invariant Elems(keys) == flipped && Distinct(keys) && |keys| == |flipped|
      invariant forall i :: i in flipped ==> i < |states|
      invariant during == Flip(states, flipped)
      decreases k - |flipped|
    {
      ghost var free := FreeIndex(flipped, |states|);
      var key: nat :| key < |states| && key !in flipped;
      DistinctConcat(keys, [key]);
      FlipOneMore(states, flipped, key);
      keys := keys + [key];
      flipped := flipped + {key};
      during := during[key := during[key].(up := !during[key].up)];
    }
  }

  /** The flip-back loop: negate the label of every flipped position once more. */
  method FlipBack(states: seq<State>, flipped: set<nat>, keys: seq<nat>, during: seq<State>) returns (after: seq<State>)
    requires forall i :: i in flipped ==> i < |states|
    requires Elems(keys) == flipped && Distinct(keys)
    requires during == Flip(states, flipped)
    ensures after == states
  {
    after := during;
    var j := 0;
    while j < |keys|
      invariant 0 <= j <= |keys|
      invariant after == Flip(states, flipped - Elems(keys[..j]))
    {
      var key := keys[j];
      assert key in flipped;
      assert Elems(keys[..j + 1]) == Elems(keys[..j]) + {key};
      assert key !in Elems(keys[..j]);
      FlipOneBack(states, flipped - Elems(keys[..j]), key);
      after := after[key := after[key].(up := !after[key].up)];
      j := j + 1;
    }
    assert keys[..j] == keys;
    assert Flip(states, {}) == states;
  }

}

=== FILE: subsets.dfy ===
/**
 * `linksSubSet` / `subsetHelper`: every subset of a list of links, each as the links it
 * contains in list order, produced by backtracking.
 */
module Subsets {
  import opened Seqs

  /**
   * What `subsetHelper(links, result, list, index)` appends to `result`: the current `list`,
   * then, for each i from `index` on, everything produced after adding `links[i]`.
   */
  function Subsets<T>(links: seq<T>, list: seq<T>, index: nat): seq<seq<T>>
    requires index <= |links|
    decreases |links| - index, 1
  {
    [list] + Branches(links, list, index)
  }

  /** The part produced by the loop iterations from `i` on. */
  function Branches<T>(links: seq<T>, list: seq<T>, i: nat): seq<seq<T>>
    requires i <= |links|
    decreases |links| - i, 0
  {
    if i == |links| then [] else Subsets(links, list + [links[i]], i + 1) + Branches(links, list, i + 1)
  }

  /** `linksSubSet`: no subsets at all (not even the empty one) for an empty list. */
  function AllSubsets<T>(links: seq<T>): seq<seq<T>> {
    if |links| == 0 then [] else Subsets(links, [], 0)
  }

  /**
   * The recursive helper, with the shared `result` and `list` passed in and handed back:
   * every `list.add` is undone by the `list.remove` that follows the recursive call.
   */
  method SubsetHelper<T>(links: seq<T>, result: seq<seq<T>>, list: seq<T>, index: nat)
    returns (result': seq<seq<T>>, list': seq<T>)
    requires index <= |links|
    ensures list' == list
    ensures result' == result + Subsets(links, list, index)
    decreases |links| - index
  {
    result' := result + [list];
    list' := list;
    var i := index;
    while i < |links|
      invariant index <= i <= |links|
      invariant list' == list
      invariant result' + Branches(links, list, i) == result + Subsets(links, list, index)
    {
      list' := list' + [links[i]];
      result', list' := SubsetHelper(links, result', list', i + 1);
      list' := list'[..|list'| - 1];
      i := i + 1;
    }
  }

  method LinksSubSet<T>(links: seq<T>) returns (result: seq<seq<T>>)
    ensures result == AllSubsets(links)
  {
    result := [];
    var list: seq<T> := [];
    if |links| == 0 {
      return;
    }
    result, list := SubsetHelper(links, result, list, 0);
  }

  // ---------------------------------------------------------------------------
  // What the subsets are.

  function Pow2(k: nat): nat {
    if k == 0 then 1 else 2 * Pow2(k - 1)
  }

  /** 2^(number of links left) lists, one of them `list` itself. */
  lemma {:induction false} SubsetsCount<T>(links: seq<T>, list: seq<T>, index: nat)
    requires index <= |links|
    ensures |Subsets(links, list, index)| == Pow2(|links| - index)
    ensures |Branches(links, list, index)| == Pow2(|links| - index) - 1
    decreases |links| - index
  {
    if index < |links| {
      SubsetsCount(links, list + [links[index]], index + 1);
      SubsetsCount(links, list, index + 1);
    }
  }

  /** A non-empty list of links has 2^k subsets, the first of them empty. */
  lemma AllSubsetsCount<T>(links: seq<T>)
    ensures |AllSubsets(links)| == if |links| == 0 then 0 else Pow2(|links|)
    ensures |links| > 0 ==> AllSubsets(links)[0] == []
  {
    if |links| > 0 {
      SubsetsCount(links, [], 0);
    }
  }

  /** Positions strictly increasing, all in `lo..hi-1`. */
  predicate IsIndexChain(idx: seq<int>, lo: int, hi: int) {
    && (forall k :: 0 <= k < |idx| ==> lo <= idx[k] < hi)
    && (forall a, b :: 0 <= a < b < |idx| ==> idx[a] < idx[b])
  }

  /** The links at the given positions, in that order. */
  function Select<T>(links: seq<T>, idx: seq<int>): (r: seq<T>)
    requires forall k :: 0 <= k < |idx| ==> 0 <= idx[k] < |links|
    ensures |r| == |idx| && forall k :: 0 <= k < |idx| ==> r[k] == links[idx[k]]
  {
    seq(|idx|, k requires 0 <= k < |idx| => links[idx[k]])
  }

  /** `s` is `list` followed by the links at some increasing positions from `index` on. */
  ghost predicate Extends<T>(links: seq<T>, list: seq<T>, index: nat, s: seq<T>) {
    exists idx :: IsIndexChain(idx, index, |links|) && s == list + Select(links, idx)
  }

  /** `Extends` with at least one position. */
  ghost predicate ExtendsStrictly<T>(links: seq<T>, list: seq<T>, index: nat, s: seq<T>) {
    exists idx :: IsIndexChain(idx, index, |links|) && |idx| > 0 && s == list + Select(links, idx)
  }

  lemma SelectCons<T>(links: seq<T>, j: int, idx: seq<int>)
    requires 0 <= j < |links| && forall k :: 0 <= k < |idx| ==> 0 <= idx[k] < |links|
    ensures Select(links, [j] + idx) == [links[j]] + Select(links, idx)
  {
  }

  /** The first position of a non-empty chain is in range. */
  lemma ChainFirst(idx: seq<int>, lo: int, hi: int)
    requires IsIndexChain(idx, lo, hi)
    ensures |idx| > 0 ==> lo <= idx[0] < hi
  {
  }

  /** Dropping the first position leaves a chain above it. */
  lemma ChainTail(idx: seq<int>, lo: int, hi: int)
    requires IsIndexChain(idx, lo, hi) && |idx| > 0
    ensures idx == [idx[0]] + idx[1..]
    ensures IsIndexChain(idx[1..], idx[0] + 1, hi)
  {
    var rest := idx[1..];
    assert forall k :: 0 <= k < |rest| ==> rest[k] == idx[k + 1];
  }

  /** A chain that does not start at `lo` lies above `lo`. */
  lemma ChainRaise(idx: seq<int>, lo: int, hi: int)
    requires IsIndexChain(idx, lo, hi) && |idx| > 0 && idx[0] != lo
    ensures IsIndexChain(idx, lo + 1, hi)
  {
    assert forall k :: 0 <= k < |idx| ==> idx[0] <= idx[k];
  }

  /** Putting position `i` in front of a chain from `i + 1` gives a strict chain from `i`. */
  lemma ConsChain<T>(links: seq<T>, list: seq<T>, i: nat, s: seq<T>)
    requires i < |links|
    requires Extends(links, list + [links[i]], i + 1, s)
    ensures ExtendsStrictly(links, list, i, s)
  {
    var idx: seq<int> :| IsIndexChain(idx, i + 1, |links|) && s == list + [links[i]] + Select(links, idx);
    SelectCons(links, i, idx);
    assert IsIndexChain([i] + idx, i, |links|);
    assert s == list + Select(links, [i] + idx);
  }

  /** A strict chain from `i + 1` is one from `i`. */
  lemma WidenChain<T>(links: seq<T>, list: seq<T>, i: nat, s: seq<T>)
    requires i < |links|
    requires ExtendsStrictly(links, list, i + 1, s)
    ensures ExtendsStrictly(links, list, i, s)
  {
    var idx: seq<int> :| IsIndexChain(idx, i + 1, |links|) && |idx| > 0 && s == list + Select(links, idx);
    assert IsIndexChain(idx, i, |links|);
  }

  /** A strict chain from `i` either starts at `i` or lies wholly after it. */
  lemma SplitChain<T>(links: seq<T>, list: seq<T>, i: nat, s: seq<T>)
    requires i < |links|
    requires ExtendsStrictly(links, list, i, s)
    ensures Extends(links, list + [links[i]], i + 1, s) || ExtendsStrictly(links, list, i + 1, s)
  {
    var idx: seq<int> :| IsIndexChain(idx, i, |links|) && |idx| > 0 && s == list + Select(links, idx);
    if idx[0] == i {
      ChainTail(idx, i, |links|);
      var rest := idx[1..];
      SelectCons(links, i, rest);
      assert s == list + [links[i]] + Select(links, rest);
    } else {
      ChainRaise(idx, i, |links|);
    }
  }

  /** Past the last position no chain is strict, matching the empty `Branches`. */
  lemma NoChainAtEnd<T>(links: seq<T>, list: seq<T>, s: seq<T>)
    ensures !ExtendsStrictly(links, list, |links|, s)
  {
    forall idx | IsIndexChain(idx, |links|, |links|) ensures |idx| == 0 {
      ChainFirst(idx, |links|, |links|);
    }
  }

  /** `Subsets` adds `list` itself, the empty chain, to the strict extensions. */
  lemma SubsetsFromBranches<T>(links: seq<T>, list: seq<T>, i: nat)
    requires i <= |links|
    requires forall t :: t in Branches(links, list, i) <==> ExtendsStrictly(links, list, i, t)
    ensures forall s :: s in Subsets(links, list, i) <==> Extends(links, list, i, s)
  {
    forall s | s in Subsets(links, list, i) ensures Extends(links, list, i, s) {
      if s == list {
        assert IsIndexChain([], i, |links|) && s == list + Select(links, []);
      } else {
        assert s in Branches(links, list, i);
        assert ExtendsStrictly(links, list, i, s);
        var idx: seq<int> :| IsIndexChain(idx, i, |links|) && |idx| > 0 && s == list + Select(links, idx);
      }
    }
    forall s | Extends(links, list, i, s) ensures s in Subsets(links, list, i) {
      var idx: seq<int> :| IsIndexChain(idx, i, |links|) && s == list + Select(links, idx);
      if |idx| == 0 {
        assert s == list;
      } else {
        assert ExtendsStrictly(links, list, i, s);
      }
    }
  }

  /**
   * The lists produced are exactly `list` extended by the links at increasing positions from
   * `index` on: each such extension appears, and nothing else does.
   */
  lemma {:induction false} SubsetsMembers<T>(links: seq<T>, list: seq<T>, index: nat)
    requires index <= |links|
    ensures forall s :: s in Subsets(links, list, index) <==> Extends(links, list, index, s)
    ensures forall s :: s in Branches(links, list, index) <==> ExtendsStrictly(links, list, index, s)
    decreases |links| - index
  {
    var i := index;
    if i < |links| {
      var li := list + [links[i]];
      SubsetsMembers(links, li, i + 1);
      SubsetsMembers(links, list, i + 1);
      var withFirst, without := Subsets(links, li, i + 1), Branches(links, list, i + 1);
      assert Branches(links, list, i) == withFirst + without;
      forall s ensures s in Branches(links, list, i) <==> ExtendsStrictly(links, list, i, s) {
        if s in withFirst {
          ConsChain(links, list, i, s);
        } else if s in without {
          WidenChain(links, list, i, s);
        }
        if ExtendsStrictly(links, list, i, s) {
          SplitChain(links, list, i, s);
        }
      }
    } else {
      forall s ensures !ExtendsStrictly(links, list, i, s) {
        NoChainAtEnd(links, list, s);
      }
    }
    SubsetsFromBranches(links, list, i);
  }

  /** Every list past the first continues `list` with one of the links from `index` on. */
  lemma BranchesShape<T>(links: seq<T>, list: seq<T>, index: nat, s: seq<T>)
    requires index <= |links| && s in Branches(links, list, index)
    ensures |s| > |list| && s[..|list|] == list
    ensures exists j :: index <= j < |links| && s[|list|] == links[j]
  {
    SubsetsMembers(links, list, index);
    var idx :| IsIndexChain(idx, index, |links|) && |idx| > 0 && s == list + Select(links, idx);
    assert s[|list|] == links[idx[0]];
  }

  /** Distinct links give distinct subsets. */
  lemma {:induction false} SubsetsDistinct<T>(links: seq<T>, list: seq<T>, index: nat)
    requires index <= |links| && Distinct(links)
    ensures Distinct(Subsets(links, list, index))
    ensures Distinct(Branches(links, list, index))
    decreases |links| - index
  {
    var i := index;
    if i < |links| {
      var li := list + [links[i]];
      SubsetsDistinct(links, li, i + 1);
      SubsetsDistinct(links, list, i + 1);
      var first := Subsets(links, li, i + 1);
      forall a | 0 <= a < |first| ensures first[a] !in Branches(links, list, i + 1) {
        var s := first[a];
        assert s[|list|] == links[i] by {
          if s != li {
            BranchesShape(links, li, i + 1, s);
            assert s[..|li|] == li;
            assert s[..|li|][|list|] == li[|list|];
          }
        }
        if s in Branches(links, list, i + 1) {
          BranchesShape(links, list, i + 1, s);
        }
      }
      DistinctConcat(Subsets(links, li, i + 1), Branches(links, list, i + 1));
    }
    forall s | s in Branches(links, list, i) ensures s != list {
      BranchesShape(links, list, i, s);
    }
    DistinctConcat([list], Branches(links, list, i));
  }

  /** Every subset lists links of `links` only. */
  lemma SubsetDrawsFrom<T>(links: seq<T>, s: seq<T>)
    requires s in AllSubsets(links)
    ensures forall x :: x in s ==> x in links
  {
    SubsetsMembers(links, [], 0);
    assert Extends(links, [], 0, s);
    var idx: seq<int> :| IsIndexChain(idx, 0, |links|) && s == [] + Select(links, idx);
    forall x | x in s ensures x in links {
      var t :| 0 <= t < |s| && s[t] == x;
      assert x == links[idx[t]];
    }
  }

  lemma FirstIn(s: seq<int>)
    ensures |s| > 0 ==> s[0] in s
  {
  }

  /** The first position of a chain is its smallest one. */
  lemma ChainHead(idx: seq<int>, lo: int, hi: int, x: int)
    requires IsIndexChain(idx, lo, hi) && x in idx
    ensures idx[0] <= x
  {
    var p :| 0 <= p < |idx| && idx[p] == x;
    if p > 0 {
      assert idx[0] < idx[p];
    }
  }

  /** The tail of a chain holds exactly its positions other than the first. */
  lemma ChainTailElems(idx: seq<int>, lo: int, hi: int, x: int)
    requires IsIndexChain(idx, lo, hi) && |idx| > 0
    ensures x in idx[1..] <==> x in idx && x != idx[0]
  {
    var t := idx[1..];
    if x in t {
      var p :| 0 <= p < |t| && t[p] == x;
      assert idx[p + 1] == x && idx[0] < idx[p + 1];
    }
    if x in idx && x != idx[0] {
      var q :| 0 <= q < |idx| && idx[q] == x;
      assert t[q - 1] == x;
    }
  }

  /** Two increasing chains with the same positions are the same chain. */
  lemma {:induction false} ChainsSameElems(idx1: seq<int>, idx2: seq<int>, lo: int, hi: int)
    requires IsIndexChain(idx1, lo, hi) && IsIndexChain(idx2, lo, hi)
    requires forall x :: x in idx1 <==> x in idx2
    ensures idx1 == idx2
    decreases |idx1|
  {
    FirstIn(idx2);
    if |idx1| > 0 {
      assert idx1[0] in idx1;
      assert idx2[0] in idx2;
      ChainHead(idx1, lo, hi, idx2[0]);
      ChainHead(idx2, lo, hi, idx1[0]);
      ChainTail(idx1, lo, hi);
      ChainTail(idx2, lo, hi);
      forall x ensures x in idx1[1..] <==> x in idx2[1..] {
        ChainTailElems(idx1, lo, hi, x);
        ChainTailElems(idx2, lo, hi, x);
      }
      ChainsSameElems(idx1[1..], idx2[1..], idx1[0] + 1, hi);
    }
  }

  /** With distinct links, a link is selected exactly when its position is. */
  lemma SelectMember<T>(links: seq<T>, idx: seq<int>, x: int)
    requires Distinct(links) && 0 <= x < |links|
    requires forall k :: 0 <= k < |idx| ==> 0 <= idx[k] < |links|
    ensures links[x] in Select(links, idx) <==> x in idx
  {
    var s := Select(links, idx);
    if x in idx {
      var t :| 0 <= t < |idx| && idx[t] == x;
      assert s[t] == links[x];
    }
    if links[x] in s {
      var t :| 0 <= t < |s| && s[t] == links[x];
      assert links[idx[t]] == links[x];
    }
  }

  /**
   * With distinct links, different subsets differ as sets, not only as lists: some link is in
   * one and not the other.
   */
  lemma AllSubsetsDistinctSets<T>(links: seq<T>, i: int, j: int) returns (l: T)
    requires Distinct(links) && 0 <= i < j < |AllSubsets(links)|
    ensures l in links && (l in AllSubsets(links)[i]) != (l in AllSubsets(links)[j])
  {
    var subs := AllSubsets(links);
    SubsetsDistinct(links, [], 0);
    SubsetsMembers(links, [], 0);
    var a, b := subs[i], subs[j];
    assert a != b;
    assert a in Subsets(links, [], 0) && b in Subsets(links, [], 0);
    assert Extends(links, [], 0, a) && Extends(links, [], 0, b);
    var ia: seq<int> :| IsIndexChain(ia, 0, |links|) && a == [] + Select(links, ia);
    var ib: seq<int> :| IsIndexChain(ib, 0, |links|) && b == [] + Select(links, ib);
    if forall x :: x in ia <==> x in ib {
      ChainsSameElems(ia, ib, 0, |links|);
    }
    var x :| (x in ia) != (x in ib);
    if x in ia {
      assert 0 <= x < |links|;
    } else {
      assert 0 <= x < |links|;
    }
    SelectMember(links, ia, x);
    SelectMember(links, ib, x);
    l := links[x];
  }
}

=== FILE: wrappers.dfy ===
/** Failure-carrying result types shared by the model. */
module Wrappers {

  /** A value that may be absent; `None` stands for Java's `null`. */
  datatype Option<+T> = None | Some(value: T)

  /** The outcome of an operation that may throw. */
  datatype Result<+T, +E> = Success(value: T) | Failure(error: E)
}
